=== FILE: README.md ===
# Hydroponics growth game: session, prompt and engine state machines in Dafny

This project models the decision logic of a browser-based hydroponics growing game. The game
has three cooperating parts, and each is modelled as immutable Dafny records with pure
transition functions:

- **The page script** (`static/script.js`). It owns the client's session:
  - the session id, the setup parameters, and the paused flag;
  - one repeating status poll;
  - four browser-storage keys (`hydro.sid`, `hydro.params`, `hydro.paused`, `hydro.snapshot`);
  - a single prompt-expiry timer;
  - the end-of-run latch;
  - a feedback queue whose lines expire.

  Each handler is a function of (state, event, time, network outcome) that returns the new
  state and the requests it sends (`Client`, `Storage`, `Feedback`, `ClientHelpers`).
- **The simulation engine** (`educator.py`). It owns:
  - the single-prompt gate: one active prompt, a 5 s gap, an 8 s per-key cooldown, and
    penalties staged at raise time and charged only on a miss (`PromptGate`);
  - growth stages over day ranges (`Stages`);
  - the two-hour tick with day rollover and daily-light accounting, the clamped user nudges,
    the stage advance and the yield (`Educator`);
  - the browser snapshot (`EngineSnapshot`).

  Readings are integer hundredths: health 100.00 is 10000, and humidity, water, EC, pH,
  temperature and the temperature offset use the same scale. Time is integer milliseconds.
- **The web server** (`app.py`). It owns the session table and the endpoints' effects on it,
  and the action dispatch that decides which prompt each action resolves (`Server`).

`Common` holds the small shared vocabulary:
- `Option` and JavaScript/Python truthiness of strings;
- the clamp;
- `IndexOf` and the `min(len - 1, i + 1)` next-stage index, which both the page and the
  engine use.

The client invariant `Client.Valid` is proved to hold across any sequence of events
(`Client.RunKeepsValid`; `Client.RunCorrectedKeepsValid` for the client with both
corrections from "## Findings" applied). It states:
- a poll loop runs only for an unpaused session with an id, and at most one loop exists;
- a live prompt timer always belongs to the active prompt key;
- storage is consistent.

On the engine side, `Educator.TicksKeepClock` proves the following over any run of the worker
loop, for every engine with a valid clock:
- the hour stays even and within [0, 22];
- health is untouched;
- an active prompt is never replaced.

`Educator.TicksKeepAlignment` adds that the tick counter stays in step with the clock for an
engine that starts in step.

The model follows the code where it departs from the game's documented behaviour:

- A failed start leaves the previous session id in place (`App.sid` is only assigned after a
  successful reply, script.js:108-136). It does not fall back to "no session".
- The page's death test reads a top-level `status` marker. The server's status payload has no
  such field (app.py:23-52), so only the health threshold can end a run as dead.
- On page load the setup dialog is hidden once the snapshot exchange finishes, whatever the
  server answered (script.js:78-83). `Client.ColdStart` models this as written.
- A stage advance sets the tick counter to `day * 24` although a tick is two hours
  (educator.py:200). `Educator.Advance` states this as written. The tick alignment
  `Educator.TickAligned` is therefore kept by ticks but not by an advance.
- An advance from a day past the last stage goes back to the first stage: the index of
  "Harvestable" is -1, and -1 + 1 = 0 (`Educator.AdvanceAfterHarvestRestartsTable`).

## Model

| member | source | states |
|---|---|---|
| Client.StopPolling | static/script.js:164-169 | no poll loop and no abort token remain; nothing else changes |
| Client.StartPolling | static/script.js:141-143 | the previous loop is stopped first; exactly one new loop exists, with a generation no earlier loop had |
| Client.PollTick | static/script.js:145-152 | no request without a loop, with an empty or missing session id, or while paused; otherwise exactly one status request, tagged with the live loop |
| Client.PollResponse | static/script.js:148-160 | a response from a cancelled loop only marks the client offline; a failed status marks it offline; an ok status is rendered |
| Client.RenderStatus | static/script.js:172-195 | the prompt timer and key are what the scheduler makes of the status's `required_action`; the image is the reported crop and stage's; the feedback queue is pruned; the session, pause flag and storage are untouched; an already shown end stays shown; a fresh harvest stops polling and shows the harvest modal, a fresh death (when not harvested) the dead modal; the last stage becomes the reported stage or "Seedling"; the current crop is the reported crop, else the chosen one, else "Cherry Tomato"; the online badge, the setup dialog and the loop counter are untouched |
| Client.StatusImage | static/script.js:582-594 | a missing or empty crop falls back to "Cherry Tomato" and a missing or empty stage to "Seedling"; otherwise the image is the reported crop and stage's |
| Client.SchedulePromptTimeout | static/script.js:531-549 | no prompt clears the timer and key; the same key is a no-op that keeps the deadline; a new key replaces the timer with deadline `now + max(0, expires_at - now)` |
| Client.PromptExpiry | static/script.js:550-563 | nothing happens before the deadline; at the deadline the timer is spent, a "Missed: label" line is queued and a miss report is sent only when a session id exists |
| Client.RepeatedKeyKeepsDeadline | static/script.js:541 | a prompt whose key repeats keeps the deadline computed the first time |
| Client.MissReportedOnce | static/script.js:550-563 | an expiry either spends the timer or leaves the client as it was, so one timer cannot report twice |
| Client.MissedPromptScenario | static/script.js:531-563 | a prompt due at 6000 ms is not reported at 5999 ms; at 6000 ms it is reported once, with exactly one "Missed" line; it is not reported again at 6001 ms |
| Client.RoundPercent | static/script.js:680 | the result is the whole percentage nearest the reading, halves rounded up |
| Client.IsDead | static/script.js:680-681 | a status is dead exactly when its health is below 70.50 % or missing, or it carries the dead marker |
| Client.DeathIsBelowSeventyAndAHalf | static/script.js:680-681 | rounded health is at most 70 exactly when the reading is below 70.50 % |
| Client.MissingHealthIsDead | static/script.js:680-681 | a payload without health counts as dead, because missing health reads as 0 |
| Client.HandleEndStates | static/script.js:676-703 | a no-op once an end was shown; "Harvestable" wins over death; either end latches, picks its modal and stops polling; otherwise nothing changes |
| Client.EndStateSticky | static/script.js:677 | once an end was shown, no event other than a restart or a new setup clears it |
| Client.HealthyStatusKeepsPolling | static/script.js:676-703 | a non-harvest status with health above the threshold keeps the loop running |
| Client.HarvestStatusEnds | static/script.js:683-694 | a harvest status shows the harvest modal and stops polling |
| Client.HarvestScenario | static/script.js:98-137 | after setup, a healthy "Fruiting" status keeps polling, and a later "Harvestable" status ends the run with the harvest modal |
| Client.StaleResponseDiscarded | static/script.js:141-143 | after a restart of polling, a response from the old loop never reaches the view |
| Client.SubmitSetup | static/script.js:98-137 | the chosen parameters are kept (language defaults to "en") and one start request is sent; failure only marks offline; success adopts the new id, unpauses, clears storage, feedback and the end latch, and starts one loop |
| Client.RunAction | static/script.js:229-261 | nothing without a session id or while paused; otherwise the prompt timer and key are cleared before the action is sent, and the session, polling and storage are untouched; a failed reply changes nothing else |
| Client.ActionSuppressesMiss | static/script.js:233-237 | right after an action, whenever it was taken, no prompt timer is left that could report a miss (a status still carrying the prompt can re-arm it: see the findings) |
| Client.StatusArmsPrompt | static/script.js:148-155 | a live loop's status carrying a prompt the client is not tracking arms a timer with that prompt's deadline, which reports the miss under the current session id |
| Client.InFlightStatusRearmsMiss | static/script.js:229-237 | as written: after an action, a status from the same loop that still carries the prompt re-arms it with its original deadline, and the miss is reported at that deadline |
| Client.InFlightStatusScenario | static/script.js:229-237 | a prompt due at 6000 ms, acted on at 5000 ms, re-armed by a status landing at 5100 ms, is reported missed at 6000 ms |
| Client.RunActionCorrected | static/script.js:229-261 | corrected: the same requests as the action handler and the same cleared prompt slot; once the action is sent, a running poll loop is replaced by a new one |
| Client.InFlightStatusIgnoredAfterAction | static/script.js:229-237 | corrected: a status from the loop that was live when the action was sent re-arms nothing, so no miss is reported for the prompt acted on |
| Client.UnfixedPromptStillReported | static/script.js:229-237 | corrected: a status from the new loop that still carries a prompt (one the action did not fix) arms its timer, and the miss is reported at its deadline |
| Client.NextButton | static/script.js:397-422 | nothing without a session id or while paused; otherwise a "next_stage" action is sent; the prompt timer is left alone and a failed reply changes nothing |
| Client.EnterPause | static/script.js:275-296 | polling stops, the client is paused, and the id, parameters and flag "1" are stored; the snapshot is stored only from an ok reply that carries one; a network failure still pauses |
| Client.LeavePause | static/script.js:297-311 | the server is told, the client unpauses and runs one poll loop; only the paused flag and snapshot keys are removed |
| Client.PauseClick | static/script.js:272-313 | nothing without a session id; otherwise the paused flag flips and the id is kept |
| Client.PauseThenResume | static/script.js:272-313 | pause then resume keeps the session id, runs exactly one poll loop and keeps the saved id and parameters |
| Client.RestartAsWritten | static/script.js:429-451 | as the source does it: the server is told if an id exists; the id, pause, polling, storage, feedback and end latch are reset; the prompt timer and key are left as they were |
| Client.PendingTimerRefillsFeedback | static/script.js:550-563 | a due timer that fires into an empty feedback queue leaves exactly one line |
| Client.PendingTimerReportsToNewSession | static/script.js:98-137 | a due timer kept across a new setup reports its miss under the new session id |
| Client.RestartAsWrittenLeaksPromptTimer | static/script.js:642-664 | after that restart, a pending timer still puts a "Missed" line into the cleared feedback, and reports the miss against a session started afterwards |
| Client.Restart | static/script.js:429-451 | the corrected restart: everything above is reset, the prompt timer and key are cleared too, and the result is valid whatever the prior state |
| Client.RestartSilencesPromptTimer | static/script.js:642-664 | after the corrected restart, no prompt timer of the old session can fire |
| Client.TryAutoResumeFromSnapshot | static/script.js:361-388 | without an id or a stored snapshot nothing is sent and the answer is false; otherwise the stored snapshot is sent under the id; the answer is true only for an ok reply |
| Client.ColdStart | static/script.js:68-87 | without a saved paused session the setup dialog shows; with one, the session is adopted paused and not polling, the snapshot is offered, and the dialog is hidden |
| Client.Unload | static/script.js:390-394 | an unpaused client leaves empty storage; a paused one leaves its storage as it is |
| Client.UnloadThenColdStart | static/script.js:68-87 | after a reload, only a paused client's session comes back, with the same id, paused |
| Client.Step | static/script.js:141-703 | every handler, as written, keeps the client invariant |
| Client.RunKeepsValid | static/script.js:141-169 | every sequence of events handled as written keeps at most one poll loop, only for an unpaused session with an id, and the prompt timer bound to the active key |
| Client.StepCorrected | static/script.js:229-261 | the corrected client differs from the source only in its action and restart handlers, and each of its handlers keeps the client invariant |
| Client.RunCorrectedKeepsValid | static/script.js:141-169 | every sequence of events handled by the corrected client keeps the same invariant |
| Storage.SavePausedSession | static/script.js:324-329 | nothing is written without a session id; otherwise the id, parameters and flag "1" are stored and the snapshot slot is untouched |
| Storage.ClearSavedSession | static/script.js:331-336 | all four keys are removed |
| Storage.ClearPausedFlagOnly | static/script.js:338-341 | the flag and snapshot are removed; the id and parameters stay |
| Storage.LoadSavedPausedSession | static/script.js:343-359 | a session is restored exactly when the flag is "1" and the id is non-empty; missing parameters keep the current ones |
| Storage.ConsistentPausedStoreLoads | static/script.js:343-359 | a store the client wrote with the flag set always loads its own session back |
| Storage.SaveThenLoad | static/script.js:324-359 | saving a paused session and loading it returns the same id and parameters |
| Feedback.Prune | static/script.js:58-60 | the kept items are exactly the queued items that have not expired, none of them expired |
| Feedback.PruneCounts | static/script.js:60 | every live item is kept as many times as it was queued; expired items are dropped |
| Feedback.PruneAppend | static/script.js:60 | pruning splits over concatenation, so the queue order is kept |
| Feedback.PruneIdempotent | static/script.js:58-60 | pruning twice at the same instant removes nothing more |
| Feedback.Add | static/script.js:52-56 | empty text is ignored; otherwise the pruned queue is kept in order, the new line is last and expires `ttl` later, and every kept line is live |
| Feedback.AddToEmpty | static/script.js:52-56 | a line added to an empty queue is the only line |
| ClientHelpers.Slug | static/script.js:567-572 | the result contains only `[a-z0-9_]`, is no longer than the input, and contains no dropped character |
| ClientHelpers.SlugOfSlug | static/script.js:567-572 | a string that is already a slug is its own slug |
| ClientHelpers.SlugIdempotent | static/script.js:567-572 | slugging twice equals slugging once, and the slugs are exactly the fixed points |
| ClientHelpers.SlugSingle | static/script.js:567-572 | one character slugs to its lower-case form when that is in `[a-z0-9_]`, and to nothing otherwise |
| ClientHelpers.SlugAppend | static/script.js:567-572 | slugging works character by character: the slug of a concatenation is the concatenation of the slugs |
| ClientHelpers.StageOrder | static/script.js:42-46 | exactly Mint, Spinach and Cherry Tomato have stage lists, each starting at "Seedling" |
| ClientHelpers.ImageChoice | static/script.js:575-578 | an unknown crop falls back to Cherry Tomato; an unknown stage falls back to that crop's last stage; a known pair is kept |
| ClientHelpers.FindImagePath | static/script.js:574-580 | the path is `img/`, a slug file name holding the `_` separator, then `.png`, so it never leaves the image directory |
| ClientHelpers.ChosenPairKeepsPath | static/script.js:574-580 | the fallbacks are resolved once: the chosen pair is its own choice and gives the same path |
| ClientHelpers.NextStageImage | static/script.js:603-617 | no image for a crop without a stage list; otherwise the image of the stage one after the last stage (or after "Seedling" when the last stage is unknown), and of that same stage when it is the final one |
| ClientHelpers.NextStageNeverPassesLast | static/script.js:611-614 | the next-stage hint moves exactly one stage on and stays at the last stage |
| ClientHelpers.ToFixedOrDash | static/script.js:472-474 | anything that is not a number shows a dash; a number shows at the given precision, 0 digits by default |
| ClientHelpers.ZeroIsNotMissing | static/script.js:472-474 | a zero reading shows as a number, not as the dash |
| Common.OrElse | app.py:118-121 | a blank or missing value takes the default; a non-empty one is kept |
| Common.Clamp | educator.py:128-130 | the result is within the bounds: the input when it already is, else the bound it passed |
| Common.IndexOf | educator.py:195 | -1 exactly when absent; otherwise the first position holding the value |
| Common.NextStageIndex | educator.py:196 | `min(len - 1, i + 1)`: a valid index, one past the current stage, staying at the last, and 0 for a stage not in the list |
| PromptGate.PenaltyFor | educator.py:49-61 | "water_low" costs 1.00; "ec_low", "ec_high" and "ph_out" cost 0.60; the humidity and temperature keys cost 0.50; "light_on" costs 0.20; any key not in the table costs the default 0.50; so every key costs a positive amount |
| PromptGate.MaybeRaise | educator.py:137-154 | nothing is raised while a prompt is active, before the gap ends, or within 8000 ms of the key's last raise; otherwise the prompt expires at `now + ttl` and its raise time is recorded; a penalty is staged only if none is already staged for the key |
| PromptGate.Resolve | educator.py:156-163 | the prompt is always cleared and the gap ends at `now + 5000`; acting also drops that key's staged penalty |
| PromptGate.Miss | educator.py:165-174 | a no-op without a prompt; otherwise the staged (else table) penalty is charged, health is clamped to [0, 100], the prompt is cleared and the gap restarts |
| PromptGate.ClearCooldownIfOk | educator.py:176-178 | an OK condition forgets its key's raise time; a bad one changes nothing |
| PromptGate.OkConditionLiftsCooldown | educator.py:176-178 | once the gate is open, a key whose condition was seen OK may be raised at once |
| PromptGate.CooldownBlocksReraise | educator.py:144-146 | a key raised at a non-zero time cannot be raised again within 8000 ms, even after a resolve or a miss |
| PromptGate.GapAfterRelease | educator.py:156-174 | after a resolve or a miss, nothing can be raised for 5000 ms |
| PromptGate.StagedPenaltyIsCharged | educator.py:151-170 | the penalty staged at the first raise is the one a miss charges, and acting in time cancels it |
| PromptGate.CheckAll | educator.py:419-500 | an active prompt is never replaced; the gap is unchanged; a newly active prompt comes from a bad condition, with the default ttl; with no bad condition nothing is raised |
| PromptGate.FirstEligibleIsRaised | educator.py:419-500 | with no prompt active and the gap over, the first bad condition whose cooldown has elapsed is raised, passing over earlier bad conditions still in cooldown (keys being distinct, as in the tick's list) |
| PromptGate.BadLabels | educator.py:419-500 | the notifications are exactly the labels of the bad conditions, never more of them than conditions |
| PromptGate.BadLabelsAppend | educator.py:419-500 | the notifications keep the conditions' order: the labels of a concatenation are those of each part in turn |
| PromptGate.BadLabelsSingle | educator.py:419-500 | one condition adds its label exactly when it is bad |
| Stages.GetStage | educator.py:118-123 | the first stage, in table order, whose range contains the day; "Harvestable" when none does |
| Stages.LastStageEnd | educator.py:125-126 | the largest end day of the table, which is one entry's end; none for an empty table, where Python raises |
| Stages.PastLastEndIsHarvestable | educator.py:118-126 | after the last end day, the lookup says "Harvestable" |
| Stages.NextStage | educator.py:193-197 | none for an empty table; otherwise a table entry, the first one for an unknown stage and the last one from the last stage |
| Stages.NextStageStepsForward | educator.py:193-196 | from a stage that is not the last, the advance moves exactly one entry forward |
| Educator.NewEngine | educator.py:13-100 | defined exactly when the city, month and crop are in the data; starts at day 0, hour 0, "Seedling", with full water and health, EC and pH at the range tops, the month's mean temperature and humidity, no prompt, and neither paused nor running |
| Educator.NewEngineClockOk | educator.py:85-88 | a new engine satisfies the clock invariant and the tick alignment |
| Educator.ToggleLight | educator.py:254-257 | only the light and the feedback change |
| Educator.RefillWater | educator.py:259-262 | the tank is full; only the water and the feedback change |
| Educator.Midpoint | educator.py:264-269 | the midpoint lies within an ordered range and is at most one hundredth off centre |
| Educator.NormalizeEc | educator.py:264-269 | EC moves into the crop's range and the old and new values are reported; nothing else changes |
| Educator.NormalizePh | educator.py:271-276 | pH moves into the crop's range and the old and new values are reported; nothing else changes |
| Educator.SprayMist | educator.py:278-281 | humidity rises by 5.00 while that stays within 100.00, and above 95.00 saturates at exactly 100.00; it never goes down and stays within [0, 100] |
| Educator.Dehumidify | educator.py:283-286 | humidity falls by 10.00 while that stays at or above 0, and below 10.00 saturates at exactly 0; it never goes up and stays within [0, 100] |
| Educator.MoveToShade | educator.py:288-295 | the offset falls by 4.00 but not below -5.00; the plant is inside; the temperature drops by 6.00; the temperature is locked for three ticks |
| Educator.MoveToSunlight | educator.py:297-303 | the offset rises by 4.00 but not above 5.00; the plant is outside; the temperature rises by 4.00; the temperature is locked for three ticks |
| Educator.NudgesKeepBounds | educator.py:278-303 | any sequence of shade, sun, spray and dehumidify keeps the offset in [-5, 5] and humidity in [0, 100] |
| Educator.ResolvePrompt | educator.py:156-163 | the gate is released, and "handled in time" is added only when the user acted on a staged prompt |
| Educator.PromptMissed | educator.py:165-174 | a no-op without a prompt; otherwise the prompt is cleared, the penalty is subtracted from health and the result clamped to [0, 100], and one feedback line is added |
| Educator.MissNeverHeals | educator.py:165-174 | a miss never raises health and never takes it below 0 |
| Educator.LightAccounting | educator.py:354-363 | two hours are counted within sunlight hours or while the light is on; the light turns itself off once the day's need is met, with a note |
| Educator.Conditions | educator.py:419-500 | the nine conditions in source order, led by the water check below 20.00 and ending with the daylight projection |
| Educator.CheckConditions | educator.py:419-503 | the bad conditions' labels are added to the notifications; the gate sees every condition; health is only clamped |
| Educator.DaylightPromptIffShort | educator.py:490-500 | with the gate open and all else fine, the daylight prompt is raised exactly when `daily + max(0, sunlight - hour) < need` and the light is off |
| Educator.AdvanceClock | educator.py:368-377 | one more tick, two more hours, and at 24 the hour resets to 0, the day advances and the day's light count resets; keeps the clock invariant and the tick alignment |
| Educator.Observe | educator.py:319-352 | the environment step's readings replace the old ones and the notifications are cleared |
| Educator.Tick | educator.py:314-377 | one tick counts once on the clock, leaves the stage label, rebuilds the notifications from the conditions, never replaces an active prompt and leaves health and offset alone |
| Educator.SimulateTick | educator.py:308-377 | an empty table raises; on or after the last end day only the stage changes, to "Harvestable"; otherwise the stage follows the day and one tick runs |
| Educator.RunTicks | educator.py:224-235 | the loop does nothing once the engine is stopped, at "Harvestable" or at zero health, and nothing while paused; the crop data, the flags and the identity never change |
| Educator.RaisingTicksOnlyReport | educator.py:230-234 | when every tick raises (no stage table), each iteration only appends one "Simulation error" line and the loop goes on |
| Educator.TicksKeepClock | educator.py:226-235 | over any run of the worker loop, for any engine with a valid clock (also one a stage advance has put out of step), the hour stays even in [0, 22], health is untouched and an active prompt stays |
| Educator.TicksKeepAlignment | educator.py:226-235 | ticks keep the tick counter in step with the clock for an engine that is in step |
| Educator.ResetStageIdeals | educator.py:180-189 | EC and pH go to their midpoints, the tank is full, the prompt is resolved as acted on and the notifications are cleared |
| Educator.Advance | educator.py:191-206 | an empty table raises; otherwise the engine moves to the next table entry after the stage the day falls in, at that stage's start day, hour 0 and tick `day * 24`, with ideals reset and the move reported |
| Educator.AdvanceStaysAtLast | educator.py:195-196 | an advance from the last stage stays at the last stage |
| Educator.AdvanceAfterHarvestRestartsTable | educator.py:194-197 | after the last end day, an advance goes back to the first stage and its start day |
| Educator.AdvanceThenTicksKeepClock | educator.py:191-235 | after a stage advance, any run of the worker loop keeps a valid clock and the health the advance left |
| Educator.CalculateYield | educator.py:507-509 | full health gives the full per-plant yield and zero health gives none |
| Educator.YieldBounds | educator.py:507-509 | with health in [0, 100] the yield lies between 0 and the per-plant yield |
| Educator.YieldMonotone | educator.py:507-509 | a healthier plant never yields less |
| Educator.SetPaused | educator.py:210-216 | pause and resume change only the paused flag |
| Educator.SetRunning | educator.py:218-222 | starting and stopping change only the running flag |
| EngineSnapshot.TakeSnapshot | educator.py:540-558 | every field is present and holds the engine's value, and the snapshot is always marked paused |
| EngineSnapshot.FromSnapshot | educator.py:561-580 | defined exactly when the city, month and crop are present and known; each of the twelve state fields is copied or takes its default (day 0, hour 0, "Seedling", light off, full water, the top of the EC and pH ranges, full health, no light hours, the mean temperature and humidity, offset 0); the engine is paused and not running, with a fresh gate and tick |
| EngineSnapshot.SnapshotRoundTrip | educator.py:540-580 | restoring an engine's snapshot gives back every snapshotted field, paused and not running, and the same snapshot again |
| EngineSnapshot.BareSnapshotIsNewEngine | educator.py:561-580 | a snapshot with only city, month and crop restores exactly the new engine for them, paused |
| Server.GetSession | app.py:14-18 | a session is found exactly when the request's sid is non-empty and in the table; a non-empty query sid wins over the body's |
| Server.Payload | app.py:23-52 | the payload carries the session's language and the engine's city, month, crop, day, hour, health, stage, yield and active prompt, and the last five feedback lines and notifications |
| Server.LastFive | app.py:50-51 | at most five entries, the stream's latest ones |
| Server.ResolveIfMatches | app.py:55-58 | the prompt is resolved as acted on exactly when its key is one the action fixes; otherwise the engine is untouched |
| Server.Perform | app.py:60-105 | the engine method an action calls never touches the prompt gate or health |
| Server.ApplyAction | app.py:60-111 | an unknown action answers "Action received." and changes nothing; a known action clears the prompt exactly when it fixes the prompt's key; "next_stage" advances, or only adds a fallback note when the advance raises |
| Server.LightOffFixesNoRaisedPrompt | app.py:62-65 | turning the light off never resolves a prompt the engine raised |
| Server.ActionsResolveOnlyTheirKeys | app.py:70-98 | with a water prompt active, normalizing EC leaves it, refilling water resolves it, and an unknown action changes nothing |
| Server.Start | app.py:115-128 | blank fields take Lahore, January, Cherry Tomato and en; a running engine is stored under the fresh id and no other session changes; unknown data is a server error with nothing stored |
| Server.Status | app.py:130-134 | a bad sid gets a 400; otherwise the session's payload is returned; the table never changes |
| Server.Action | app.py:136-145 | a bad sid or a missing `action_id` gets a 400 and nothing changes; otherwise only that session's engine changes |
| Server.PromptResult | app.py:147-154 | a bad sid gets a 400; otherwise that session's engine applies its staged penalty |
| Server.Pause | app.py:156-163 | a bad sid gets a 400; otherwise the engine is paused and its snapshot returned |
| Server.Resume | app.py:165-172 | a bad sid gets a 400; otherwise the engine is unpaused and running, with nothing else changed |
| Server.ResumeFromSnapshot | app.py:174-187 | a missing sid or a non-object snapshot gets a 400; a snapshot that cannot be restored gets a 400; otherwise a paused engine replaces or creates that sid's session |
| Server.Restart | app.py:189-201 | a bad sid gets a 400; otherwise the looked-up engine is stopped, and then the body's sid is deleted; without a body the request fails after the stop |
| Server.RestartRemovesSession | app.py:189-201 | a restart that names its session in the body removes exactly that session |
| Server.RestartQueryAndBodyDisagree | app.py:191-199 | when the query and the body name different sessions, the first is stopped but kept and the second is deleted |
| Server.PauseThenResumeFromSnapshot | app.py:156-187 | pausing and then resuming from the returned snapshot restores every snapshotted field, paused |
| Server.StartThenStatus | app.py:115-134 | a session made by start is found by status at once, at day 0 with full health, the default city and language, and no prompt |

## Left out

- Page rendering, modals, translations (`static/i18n.js`), audio and the click animation
  carry no decisions. They appear at most as flags such as `setupVisible`, `endModal` and
  `image`.
- HTTP and `fetch` are replaced by explicit replies. A reply is "ok", "failed" (both a non-ok
  status and a thrown fetch) or, for a status poll, a reply tagged with the loop that sent it.
  Timers are replaced by explicit events with integer deadlines. The JSON encoding of storage
  and requests is not modelled.
- The clock (`Date.now`, `time.time`) and the fresh session id (`uuid4`) are parameters.
- Threads and locks are not modelled: the worker thread, the sleeps and `RLock`. The loop is
  `Educator.RunTicks`, one iteration per input, and the running flag is fixed during a run: a
  `stop_simulation` in the middle of one is not expressible. Starting or stopping only sets the
  running flag.
- The loop's `finally` block is not modelled: the "Simulation ended." line and the final-yield
  line it appends when the loop exits.
- The only tick that raises in the model is one with an empty stage table. Its
  "Simulation error" line is a single note that does not carry the exception's type or text.
- The tick's environment step is not modelled: water uptake, EC and pH drift, the temperature
  schedule with its sine wave, and the random jitter on temperature and humidity. Its outcome
  is the `Readings` parameter of `Educator.SimulateTick`. Two related parts are left out
  because they only serve that step: the temperature lock's effect, and the per-day marks that
  schedule temperature and humidity updates.
- Floating point and `round(…, 2)`: readings are integer hundredths.
  - `Educator.Midpoint` rounds a half-hundredth midpoint down, where Python rounds the float.
  - The yield is a `real` without the source's rounding to three decimals.
  - Labels and feedback lines are data (`EngineText`), not formatted strings.
- Data-file loading is not modelled (`_load_json`, `uptake.json` / `update.json`, the category
  and yield files). The catalog is a given map, and a stage entry always carries its day range.
  The `save_state` / `load_state` file persistence is also left out, because the server does
  not call it.
- `get_status`, `status_payload`'s environment block, the category fields and the engine logs
  are display-only. `Server.Payload` keeps the day, hour, stage, health, yield, prompt and the
  last five feedback and notification entries.
- Python's `int()` / `float()` / `bool()` conversions of snapshot fields are not modelled. A
  snapshot field is modelled as present with the right type, or absent, so a wrongly typed
  field cannot be expressed.
- Flask's handling of a request without a JSON body is not modelled: such a request reads as
  having no body sid.
- `Slug` lower-cases ASCII only. Non-ASCII letters are dropped by the filter either way, except
  for the few whose lower-case form is ASCII.
- Each client handler is one atomic step, with its network reply as a parameter. In the source
  the action, pause, restart and setup handlers `await` their request, and a status reply can
  be rendered meanwhile: for example, one that sets `lastStage` between sending "next_stage" and
  `setImageToNextStage` reading it (script.js:603-617). Such interleavings are not expressible.
  The one that matters for prompts, a status sent before an action and answered after it, is
  modelled as a reply from the poll loop that was live when the action was sent.

## Findings

| source | as written | input that shows it | evidently intended | confidence | as-written member | corrected member |
|---|---|---|---|---|---|---|
| static/script.js:429-451 | Both restart handlers (this one and the end-modal restart at static/script.js:642-664) reset the session, storage, feedback and end latch, but leave `promptTimer` and `activePromptKey` in place. | A prompt is pending and the user restarts before its deadline. The old timer then fires and puts a "Missed: …" line into the just-cleared feedback. If a new game was started in the meantime, the timer also posts a miss report under the NEW session id. If that new engine has a prompt of its own active, the report ends that prompt as missed and charges its penalty before its time is up; otherwise the report has no effect on the server. | Restart clears the prompt timer and key along with the rest of the local state, so nothing from the old session fires afterwards. | medium (not executed) | Client.RestartAsWrittenLeaksPromptTimer | Client.Restart |
| static/script.js:229-237 | The action handler clears the prompt timer and key before sending the action. A status request the poll loop sent before the server saw the action is answered with the prompt still active. Because the key was cleared, `schedulePromptTimeout` arms the prompt again with its original deadline. | A prompt is due at 6000 ms and the user acts at 5000 ms. A status sent just before the action lands at 5100 ms, still carrying the prompt. The next poll is 2000 ms later, too late to clear the timer, so at 6000 ms a "Missed" line appears and a miss report is sent for a prompt the user answered in time. | A status answered before the action was processed does not re-arm the prompt. A prompt the action did not fix is still reported missed at its deadline. | low (not executed) | Client.InFlightStatusRearmsMiss | Client.RunActionCorrected |

=== FILE: client.dfy ===
/** The browser client's session lifecycle and prompt-deadline state machine.
    Every handler is a pure function of (state, network outcome, current time) returning
    the next state and the requests it sent. The poll interval and the prompt timer are
    "at most one" slots; the prompt timer holds its deadline as an integer millisecond. */
module Client {
  import opened Common
  import opened Storage
  import opened ClientHelpers
  import Feedback

  /** The repeating status poll (`pollingTimer`) and its abort token (`pollingAbort`),
      created and destroyed together; `gen` tells loops apart. */
  datatype PollLoop = PollLoop(gen: nat)

  /** The live prompt-expiry timer: the prompt it belongs to and when it fires. */
  datatype PromptTimer = PromptTimer(key: string, title: string, deadline: int)

  datatype EndModal = NoEndModal | HarvestModal | DeadModal

  /** The `App` record plus the module-level prompt slot, end latch, feedback queue,
      plant image and the persisted store. */
  datatype App = App(
    sid: Option<string>,
    params: Params,
    poll: Option<PollLoop>,
    nextGen: nat,
    online: bool,
    paused: bool,
    lastStage: string,
    currentCrop: string,
    activeKey: Option<string>,
    timer: Option<PromptTimer>,
    endShown: bool,
    endModal: EndModal,
    setupVisible: bool,
    image: Option<string>,
    feedback: seq<Feedback.Item>,
    store: Store)

  /** A prompt as it arrives in a status payload (`required_action`). */
  datatype RequiredAction = RequiredAction(key: string, title: string, expiresAt: Option<int>)

  /** The status payload fields the core reads; health is in hundredths of a percent. */
  datatype StatusData = StatusData(
    crop: Option<string>,
    stage: Option<string>,
    health: Option<int>,
    status: Option<string>,
    requiredAction: Option<RequiredAction>)

  /** Requests the client sends; a status request is tagged with the loop that issued it. */
  datatype Request =
    | StartReq(params: Params)
    | StatusReq(sid: string, gen: nat)
    | ActionReq(sid: string, actionId: string)
    | PauseReq(sid: string)
    | ResumeReq(sid: string)
    | SnapshotReq(sid: string, snapshot: string, language: string)
    | RestartReq(sid: string)
    | PromptMissedReq(sid: string)

  /** Network outcomes: "failed" covers both a non-ok response and a thrown fetch. */
  datatype StartReply = Started(sessionId: string) | StartFailed
  datatype StatusReply = StatusOk(data: StatusData) | StatusFailed
  datatype FeedbackField = NoFeedback | FeedbackText(text: string) | FeedbackList(items: seq<string>)
  datatype ActionReply = ActionOk(feedback: FeedbackField) | ActionFailed
  datatype PauseReply = PauseOk(snapshot: Option<string>) | PauseFailed
  datatype SnapshotReply = SnapshotOk(ok: bool) | SnapshotFailed

  datatype Out = Out(app: App, sent: seq<Request>)

  const HarvestStage: string := "Harvestable"
  const DeadMarker: string := "❌ Dead"
  /** Rounded health at or below this percentage ends the run as dead. */
  const DeathThreshold: int := 70

  /** The state right after the page loads, before any saved session is looked at. */
  function Fresh(store: Store): App {
    App(None, DefaultParams, None, 0, false, false, "Seedling", "Cherry Tomato",
        None, None, false, NoEndModal, false, None, [], store)
  }

  /** What every handler preserves: a poll loop only runs for an unpaused session and is
      the newest one made; a paused client has a session id; the live prompt timer belongs
      to the active prompt key; the store is one the client could have written. */
  predicate Valid(a: App) {
    && (a.poll.Some? ==> !a.paused && a.sid.Some? && a.poll.value.gen < a.nextGen)
    && (a.paused ==> Truthy(a.sid))
    && (a.timer.Some? ==> a.activeKey == Some(a.timer.value.key))
    && Consistent(a.store)
  }

  // ---------------------------------------------------------------- polling

  /** `stopPolling`: no interval and no abort token remain. */
  function StopPolling(a: App): (r: App)
    ensures r.poll.None?
    ensures r == a.(poll := None)
  {
    a.(poll := None)
  }

  /** `startPolling`: the previous loop is stopped first, then exactly one new loop exists,
      distinct from every loop made before. */
  function StartPolling(a: App): (r: App)
    ensures r.poll.Some? && r.poll.value.gen == a.nextGen
    ensures a.poll.Some? && a.poll.value.gen < a.nextGen ==> r.poll != a.poll
    ensures r.poll.value.gen < r.nextGen
    ensures r == a.(poll := r.poll, nextGen := r.nextGen)
  {
    var stopped := StopPolling(a);
    stopped.(poll := Some(PollLoop(a.nextGen)), nextGen := a.nextGen + 1)
  }

  /** One interval tick: nothing without a loop, a usable session id, or while paused;
      otherwise one status request tagged with the loop. The state does not change. */
  function PollTick(a: App): (r: Out)
    ensures r.app == a
    ensures |r.sent| <= 1
    ensures a.poll.None? || !Truthy(a.sid) || a.paused ==> r.sent == []
    ensures a.poll.Some? && Truthy(a.sid) && !a.paused ==> r.sent == [StatusReq(a.sid.value, a.poll.value.gen)]
  {
    if a.poll.None? || !Truthy(a.sid) || a.paused then Out(a, [])
    else Out(a, [StatusReq(a.sid.value, a.poll.value.gen)])
  }

  // ---------------------------------------------------------------- prompt slot

  /** `schedulePromptTimeout`. No prompt: the timer and key are cleared. The active key again:
      nothing changes, so the original deadline stands. A new key: the old timer is replaced
      (no miss is reported for it) by one firing after `max(0, expires_at - now)`. */
  function SchedulePromptTimeout(a: App, pa: Option<RequiredAction>, now: int): (r: App)
    ensures pa.None? ==> r.timer.None? && r.activeKey.None?
    ensures pa.Some? && a.activeKey == Some(pa.value.key) ==> r == a
    ensures pa.Some? && a.activeKey != Some(pa.value.key) ==>
              && r.activeKey == Some(pa.value.key)
              && r.timer == Some(PromptTimer(pa.value.key, pa.value.title,
                                             now + Max(0, pa.value.expiresAt.GetOr(0) - now)))
    ensures r.timer.Some? ==> r.timer.value.deadline >= now || r == a
    ensures r == a.(activeKey := r.activeKey, timer := r.timer)
    ensures Valid(a) ==> Valid(r)
  {
    match pa
    case None => a.(timer := None, activeKey := None)
    case Some(p) =>
      if a.activeKey == Some(p.key) then a
      else
        var msLeft := Max(0, p.expiresAt.GetOr(0) - now);
        a.(activeKey := Some(p.key), timer := Some(PromptTimer(p.key, p.title, now + msLeft)))
  }

  /** The prompt timer firing at `now`: nothing happens unless a live timer is due. When it
      is, the timer is spent, the server is told once (if a session id exists) and one
      "Missed: <label>" line is queued. */
  function PromptExpiry(a: App, now: int): (r: Out)
    ensures a.timer.None? || now < a.timer.value.deadline ==> r == Out(a, [])
    ensures a.timer.Some? && now >= a.timer.value.deadline ==>
              && r.app.timer.None?
              && r.sent == (if Truthy(a.sid) then [PromptMissedReq(a.sid.value)] else [])
              && |r.app.feedback| > 0
              && r.app.feedback[|r.app.feedback| - 1] ==
                   Feedback.Item("Missed: " + a.timer.value.title, now + Feedback.FeedbackTtlMs)
              && r.app == a.(timer := None, feedback := r.app.feedback)
    ensures Valid(a) ==> Valid(r.app)
  {
    match a.timer
    case None => Out(a, [])
    case Some(t) =>
      if now < t.deadline then Out(a, [])
      else
        var sent := if Truthy(a.sid) then [PromptMissedReq(a.sid.value)] else [];
        Out(a.(timer := None,
               feedback := Feedback.Add(a.feedback, "Missed: " + t.title, now, Feedback.FeedbackTtlMs)),
            sent)
  }

  // ---------------------------------------------------------------- end states

  /** `Math.round` of a health given in hundredths (rounds halves up). */
  function RoundPercent(centi: int): (r: int)
    ensures 100 * r - 50 <= centi < 100 * r + 50
  {
    (centi + 50) / 100
  }

  /** The death test: rounded health (missing counts as 0) at most 70, or the dead marker.
      In hundredths: a reading below 70.50 %, no reading at all, or the marker. */
  function IsDead(data: StatusData): (r: bool)
    ensures r <==> data.health.GetOr(0) < 7050 || data.status == Some(DeadMarker)
  {
    RoundPercent(data.health.GetOr(0)) <= DeathThreshold || data.status == Some(DeadMarker)
  }

  /** Rounded health is at most 70 exactly when the reading is below 70.50 %. */
  lemma DeathIsBelowSeventyAndAHalf(data: StatusData)
    requires data.health.Some? && data.status != Some(DeadMarker)
    ensures IsDead(data) <==> data.health.value < 7050
  {
  }

  /** A payload without a health reading is classified as dead. */
  lemma MissingHealthIsDead(data: StatusData)
    requires data.health.None?
    ensures IsDead(data)
  {
  }

  /** `handleEndStates`: a no-op once an end was shown. Otherwise a harvest stage ends the run
      (even when health also reads as dead), else death ends it; either end stops polling. */
  function HandleEndStates(a: App, data: StatusData): (r: App)
    ensures a.endShown ==> r == a
    ensures !a.endShown && data.stage == Some(HarvestStage) ==>
              r.endShown && r.endModal == HarvestModal && r.poll.None?
    ensures !a.endShown && data.stage != Some(HarvestStage) && IsDead(data) ==>
              r.endShown && r.endModal == DeadModal && r.poll.None?
    ensures !a.endShown && data.stage != Some(HarvestStage) && !IsDead(data) ==> r == a
    ensures r == a.(endShown := r.endShown, endModal := r.endModal, poll := r.poll)
    ensures Valid(a) ==> Valid(r)
  {
    if a.endShown then a
    else if data.stage == Some(HarvestStage) then StopPolling(a).(endShown := true, endModal := HarvestModal)
    else if IsDead(data) then StopPolling(a).(endShown := true, endModal := DeadModal)
    else a
  }

  /** `updatePlantImage`: the image for the reported crop and stage. */
  function StatusImage(data: StatusData): (r: string)
    ensures !Truthy(data.crop) ==> r == FindImagePath("Cherry Tomato", OrElse(data.stage, "Seedling"))
    ensures !Truthy(data.stage) ==> r == FindImagePath(OrElse(data.crop, "Cherry Tomato"), "Seedling")
    ensures Truthy(data.crop) && Truthy(data.stage) ==> r == FindImagePath(data.crop.value, data.stage.value)
  {
    FindImagePath(OrElse(data.crop, "Cherry Tomato"), OrElse(data.stage, "Seedling"))
  }

  /** `renderStatus`: schedule the prompt, update the plant image, evaluate end states,
      remember the stage and crop, and prune the feedback queue. */
  function RenderStatus(a: App, data: StatusData, now: int): (r: App)
    ensures r.sid == a.sid && r.paused == a.paused && r.store == a.store && r.params == a.params
    ensures a.endShown ==> r.endShown && r.endModal == a.endModal
    ensures !a.endShown && (data.stage == Some(HarvestStage) || IsDead(data)) ==> r.endShown && r.poll.None?
    ensures a.endShown || !(data.stage == Some(HarvestStage) || IsDead(data)) ==>
              r.poll == a.poll && r.endShown == a.endShown
    ensures r.lastStage == OrElse(data.stage, "Seedling")
    ensures var sched := SchedulePromptTimeout(a, data.requiredAction, now);
            r.timer == sched.timer && r.activeKey == sched.activeKey
    ensures r.feedback == Feedback.Prune(a.feedback, now) && r.image == Some(StatusImage(data))
    ensures r.currentCrop == (if Truthy(data.crop) then data.crop.value else OrElse(a.params.crop, "Cherry Tomato"))
    ensures r.online == a.online && r.setupVisible == a.setupVisible && r.nextGen == a.nextGen
    ensures !a.endShown && data.stage == Some(HarvestStage) ==> r.endModal == HarvestModal
    ensures !a.endShown && data.stage != Some(HarvestStage) && IsDead(data) ==> r.endModal == DeadModal
    ensures Valid(a) ==> Valid(r)
  {
    var scheduled := SchedulePromptTimeout(a, data.requiredAction, now);
    var pictured := scheduled.(image := Some(StatusImage(data)));
    var ended := HandleEndStates(pictured, data);
    var crop := if Truthy(data.crop) then data.crop.value else OrElse(a.params.crop, "Cherry Tomato");
    RenderedStaysValid(a, data, now, crop);
    ended.(lastStage := OrElse(data.stage, "Seedling"),
           currentCrop := crop,
           feedback := Feedback.Prune(ended.feedback, now))
  }

  /** The fields `renderStatus` writes keep the client state valid. */
  lemma RenderedStaysValid(a: App, data: StatusData, now: int, crop: string)
    ensures var ended := HandleEndStates(SchedulePromptTimeout(a, data.requiredAction, now)
                                           .(image := Some(StatusImage(data))), data);
            Valid(a) ==> Valid(ended.(lastStage := OrElse(data.stage, "Seedling"), currentCrop := crop,
                                      feedback := Feedback.Prune(ended.feedback, now)))
  {
  }

  /** A status response for loop `gen`. Only the live loop's response is rendered; the
      response of a loop that was stopped meets its aborted token and only marks the
      client offline. A failed request marks it offline too. */
  function PollResponse(a: App, gen: nat, reply: StatusReply, now: int): (r: App)
    ensures a.poll != Some(PollLoop(gen)) ==> r == a.(online := false)
    ensures a.poll == Some(PollLoop(gen)) && reply.StatusFailed? ==> r == a.(online := false)
    ensures a.poll == Some(PollLoop(gen)) && reply.StatusOk? ==>
              r.online && r == RenderStatus(a, reply.data, now).(online := true)
    ensures Valid(a) ==> Valid(r)
  {
    if a.poll != Some(PollLoop(gen)) then a.(online := false)
    else match reply
      case StatusFailed => a.(online := false)
      case StatusOk(data) => RenderStatus(a, data, now).(online := true)
  }

  // ---------------------------------------------------------------- setup

  /** The setup form's submit handler. The chosen parameters are kept whatever happens. On
      success the new id is adopted, the saved session is cleared, feedback and the end latch
      are reset, the seedling image is primed and polling (re)starts. On failure only the
      offline badge changes. */
  function SubmitSetup(a: App, city: Option<string>, month: Option<string>, crop: Option<string>,
                       language: Option<string>, reply: StartReply): (r: Out)
    ensures r.app.params == Params(city, month, crop, OrElse(language, "en"))
    ensures r.sent == [StartReq(r.app.params)]
    ensures r.app.timer == a.timer && r.app.activeKey == a.activeKey
    ensures reply.StartFailed? ==> r.app == a.(params := r.app.params, online := false)
    ensures reply.Started? ==>
              && r.app.sid == Some(reply.sessionId) && !r.app.paused
              && r.app.store == Storage.Empty && r.app.feedback == [] && !r.app.endShown
              && r.app.poll == Some(PollLoop(a.nextGen)) && !r.app.setupVisible
              && r.app.image == Some(FindImagePath(OrElse(crop, "Cherry Tomato"), "Seedling"))
    ensures Valid(a) ==> Valid(r.app)
  {
    var params := Params(city, month, crop, OrElse(language, "en"));
    var a1 := a.(params := params);
    match reply
    case StartFailed => Out(a1.(online := false), [StartReq(params)])
    case Started(id) =>
      var a2 := a1.(sid := Some(id), paused := false, store := ClearSavedSession(a1.store),
                    setupVisible := false, online := true, feedback := [], endShown := false,
                    image := Some(FindImagePath(OrElse(crop, "Cherry Tomato"), "Seedling")));
      Out(StartPolling(a2), [StartReq(params)])
  }

  // ---------------------------------------------------------------- actions

  function Join(xs: seq<string>, sep: string): string
    decreases |xs|
  {
    if xs == [] then ""
    else if |xs| == 1 then xs[0]
    else xs[0] + sep + Join(xs[1..], sep)
  }

  /** The feedback text an action response carries (a list is joined with " • "). */
  function FeedbackTextOf(f: FeedbackField): string {
    match f
    case NoFeedback => ""
    case FeedbackText(t) => t
    case FeedbackList(xs) => Join(xs, " • ")
  }

  /** The crop the next-stage hint uses: `currentCrop || params.crop || "Cherry Tomato"`. */
  function HintCrop(a: App): string {
    if a.currentCrop != "" then a.currentCrop else OrElse(a.params.crop, "Cherry Tomato")
  }

  function WithImage(a: App, img: Option<string>): App {
    if img.Some? then a.(image := img) else a
  }

  /** `runAction`: nothing without a session id or while paused. Otherwise the prompt timer
      and active key are cleared BEFORE the request is sent, so that prompt can no longer be
      reported missed; a successful reply queues its feedback and, for "next_stage", moves
      the plant image on. */
  function RunAction(a: App, actionId: string, reply: ActionReply, now: int): (r: Out)
    ensures !Truthy(a.sid) || a.paused ==> r == Out(a, [])
    ensures Truthy(a.sid) && !a.paused ==>
              && r.app.timer.None? && r.app.activeKey.None?
              && r.sent == [ActionReq(a.sid.value, actionId)]
              && r.app.sid == a.sid && r.app.poll == a.poll && r.app.store == a.store
    ensures Truthy(a.sid) && !a.paused && reply.ActionFailed? ==>
              r.app == a.(timer := None, activeKey := None)
    ensures Valid(a) ==> Valid(r.app)
  {
    if !Truthy(a.sid) || a.paused then Out(a, [])
    else
      var cleared := a.(timer := None, activeKey := None);
      var sent := [ActionReq(a.sid.value, actionId)];
      match reply
      case ActionFailed => Out(cleared, sent)
      case ActionOk(f) =>
        var a1 := cleared.(feedback := Feedback.Add(cleared.feedback, FeedbackTextOf(f), now, Feedback.FeedbackTtlMs));
        var a2 := if actionId == "next_stage" then WithImage(a1, NextStageImage(HintCrop(a1), a1.lastStage)) else a1;
        Out(a2, sent)
  }

  /** The "Next" button: like a "next_stage" action, except that it leaves the prompt timer alone. */
  function NextButton(a: App, reply: ActionReply, now: int): (r: Out)
    ensures !Truthy(a.sid) || a.paused ==> r == Out(a, [])
    ensures Truthy(a.sid) && !a.paused ==>
              r.sent == [ActionReq(a.sid.value, "next_stage")] &&
              r.app.timer == a.timer && r.app.activeKey == a.activeKey
    ensures reply.ActionFailed? ==> r.app == a
    ensures Valid(a) ==> Valid(r.app)
  {
    if !Truthy(a.sid) || a.paused then Out(a, [])
    else
      var sent := [ActionReq(a.sid.value, "next_stage")];
      match reply
      case ActionFailed => Out(a, sent)
      case ActionOk(f) =>
        var a1 := a.(feedback := Feedback.Add(a.feedback, FeedbackTextOf(f), now, Feedback.FeedbackTtlMs));
        Out(WithImage(a1, NextStageImage(HintCrop(a1), a1.lastStage)), sent)
  }

  // ---------------------------------------------------------------- pause / resume

  /** The pause half of the pause button. A snapshot is stored only when the reply is ok and
      carries one; polling stops and the paused session is saved whatever the network did. */
  function EnterPause(a: App, reply: PauseReply): (r: Out)
    requires Truthy(a.sid) && !a.paused
    ensures r.sent == [PauseReq(a.sid.value)]
    ensures r.app.paused && r.app.poll.None? && r.app.sid == a.sid
    ensures r.app.store.sid == a.sid && r.app.store.params == Some(a.params)
    ensures r.app.store.paused == Some(PausedFlag)
    ensures r.app.store.snapshot ==
              (if reply.PauseOk? && reply.snapshot.Some? then reply.snapshot else a.store.snapshot)
    ensures r.app == a.(paused := true, poll := None, store := r.app.store)
  {
    var st := if reply.PauseOk? && reply.snapshot.Some? then a.store.(snapshot := reply.snapshot) else a.store;
    var stopped := StopPolling(a.(store := st));
    var p := stopped.(paused := true);
    Out(p.(store := SavePausedSession(p.store, p.sid, p.params)), [PauseReq(a.sid.value)])
  }

  /** The resume half: the server is told (its answer is ignored), the client unpauses,
      restarts polling and forgets only the paused flag and snapshot. */
  function LeavePause(a: App): (r: Out)
    requires Truthy(a.sid) && a.paused
    ensures r.sent == [ResumeReq(a.sid.value)]
    ensures !r.app.paused && r.app.poll.Some? && r.app.sid == a.sid
    ensures r.app.store == a.store.(paused := None, snapshot := None)
  {
    var resumed := a.(paused := false);
    var polling := StartPolling(resumed);
    Out(polling.(store := ClearPausedFlagOnly(polling.store)), [ResumeReq(a.sid.value)])
  }

  /** The pause button's click handler: nothing without a session id; otherwise it pauses a
      running session or resumes a paused one. */
  function PauseClick(a: App, reply: PauseReply): (r: Out)
    ensures !Truthy(a.sid) ==> r == Out(a, [])
    ensures Truthy(a.sid) ==> r.app.paused == !a.paused && r.app.sid == a.sid
    ensures Valid(a) ==> Valid(r.app)
  {
    if !Truthy(a.sid) then Out(a, [])
    else if !a.paused then EnterPause(a, reply)
    else LeavePause(a)
  }

  /** Pausing and then resuming keeps the session id, runs exactly one poll loop again and
      leaves the saved id and parameters in place, without paused flag or snapshot. */
  lemma PauseThenResume(a: App, r1: PauseReply, r2: PauseReply)
    requires Valid(a) && Truthy(a.sid) && !a.paused
    ensures var b := PauseClick(a, r1).app;
            var c := PauseClick(b, r2).app;
            && b.paused && b.poll.None?
            && c.sid == a.sid && !c.paused && c.poll.Some?
            && c.store.sid == a.sid && c.store.params == Some(a.params)
            && c.store.paused.None? && c.store.snapshot.None?
  {
    var b := PauseClick(a, r1).app;
    assert b == EnterPause(a, r1).app;
    assert PauseClick(b, r2) == LeavePause(b);
  }

  // ---------------------------------------------------------------- restart

  /** The restart handlers as written: the server is told if a session id exists (its answer
      is ignored), then polling stops and the session, saved state, feedback and end latch
      are all reset; the end-modal variant also hides the end modals. The prompt timer and
      active key are left as they were. */
  function RestartAsWritten(a: App, fromEndModal: bool): (r: Out)
    ensures r.sent == (if Truthy(a.sid) then [RestartReq(a.sid.value)] else [])
    ensures r.app.sid.None? && !r.app.paused && r.app.poll.None?
    ensures r.app.store == Storage.Empty && r.app.feedback == [] && !r.app.endShown
    ensures r.app.setupVisible
    ensures r.app.timer == a.timer && r.app.activeKey == a.activeKey
    ensures fromEndModal ==> r.app.endModal == NoEndModal
    ensures Valid(a) ==> Valid(r.app)
  {
    var sent := if Truthy(a.sid) then [RestartReq(a.sid.value)] else [];
    var stopped := StopPolling(a);
    var reset := stopped.(sid := None, paused := false, store := ClearSavedSession(stopped.store),
                          feedback := [], endShown := false, setupVisible := true);
    Out(if fromEndModal then reset.(endModal := NoEndModal) else reset, sent)
  }

  /** Restart as evidently intended: everything `RestartAsWritten` resets, and the prompt
      slot too, so no prompt of the old session can be reported missed afterwards. */
  function Restart(a: App, fromEndModal: bool): (r: Out)
    ensures r.sent == (if Truthy(a.sid) then [RestartReq(a.sid.value)] else [])
    ensures r.app.sid.None? && !r.app.paused && r.app.poll.None?
    ensures r.app.store == Storage.Empty && r.app.feedback == [] && !r.app.endShown
    ensures r.app.setupVisible
    ensures r.app.timer.None? && r.app.activeKey.None?
    ensures fromEndModal ==> r.app.endModal == NoEndModal
    ensures Valid(r.app)
  {
    var w := RestartAsWritten(a, fromEndModal);
    Out(w.app.(timer := None, activeKey := None), w.sent)
  }

  /** A timer left pending fires into an empty queue: exactly one "Missed" line. */
  lemma PendingTimerRefillsFeedback(b: App, now: int)
    requires b.timer.Some? && now >= b.timer.value.deadline && b.feedback == []
    ensures |PromptExpiry(b, now).app.feedback| == 1
  {
    Feedback.AddToEmpty("Missed: " + b.timer.value.title, now, Feedback.FeedbackTtlMs);
  }

  /** A timer left pending across a new setup reports its miss against the new session. */
  lemma PendingTimerReportsToNewSession(b: App, newSid: string, now: int)
    requires b.timer.Some? && now >= b.timer.value.deadline && newSid != ""
    ensures PromptExpiry(SubmitSetup(b, None, None, None, None, Started(newSid)).app, now).sent
              == [PromptMissedReq(newSid)]
  {
    var c := SubmitSetup(b, None, None, None, None, Started(newSid)).app;
    assert c.timer == b.timer && c.sid == Some(newSid);
  }

  /** The source's restart leaves a pending prompt timer behind: when it fires, a "Missed"
      line reappears in the just-cleared feedback, and if a new session was started in the
      meantime the miss is reported against that NEW session. */
  lemma RestartAsWrittenLeaksPromptTimer(a: App, fromEndModal: bool, newSid: string, now: int)
    requires a.timer.Some? && now >= a.timer.value.deadline
    requires newSid != ""
    ensures var b := RestartAsWritten(a, fromEndModal).app;
            && b.feedback == []
            && |PromptExpiry(b, now).app.feedback| == 1
            && PromptExpiry(SubmitSetup(b, None, None, None, None, Started(newSid)).app, now).sent
               == [PromptMissedReq(newSid)]
  {
    var b := RestartAsWritten(a, fromEndModal).app;
    PendingTimerRefillsFeedback(b, now);
    PendingTimerReportsToNewSession(b, newSid, now);
  }

  /** After the corrected restart, no prompt timer of the old session can fire. */
  lemma RestartSilencesPromptTimer(a: App, fromEndModal: bool, now: int)
    ensures var b := Restart(a, fromEndModal).app;
            PromptExpiry(b, now) == Out(b, [])
  {
  }

  // ---------------------------------------------------------------- cold start

  /** `tryAutoResumeFromSnapshot`: without a session id or a stored snapshot nothing is sent and
      the answer is "not resumed"; otherwise the snapshot is sent with the saved language
      (default "en") and the answer is the server's `ok`, a failure counting as "not resumed". */
  function TryAutoResumeFromSnapshot(a: App, reply: SnapshotReply): (r: (bool, seq<Request>))
    ensures !Truthy(a.sid) || !Truthy(a.store.snapshot) ==> r == (false, [])
    ensures Truthy(a.sid) && Truthy(a.store.snapshot) ==>
              |r.1| == 1 && r.1[0].SnapshotReq? && r.1[0].sid == a.sid.value &&
              r.1[0].snapshot == a.store.snapshot.value
    ensures r.0 <==> Truthy(a.sid) && Truthy(a.store.snapshot) && reply == SnapshotOk(true)
  {
    if !Truthy(a.sid) || !Truthy(a.store.snapshot) then (false, [])
    else
      var lang := if a.store.params.Some? && a.store.params.value.language != "" then a.store.params.value.language else "en";
      (reply == SnapshotOk(true), [SnapshotReq(a.sid.value, a.store.snapshot.value, lang)])
  }

  /** Page load (`onPageLoad`). A saved paused session is adopted (paused, not polling) and
      its snapshot offered to the server; the setup dialog is then hidden whatever the server
      answered. Without a saved paused session the setup dialog is shown. */
  function ColdStart(store: Store, reply: SnapshotReply): (r: Out)
    ensures LoadSavedPausedSession(store, DefaultParams).None? ==>
              r == Out(Fresh(store).(setupVisible := true), [])
    ensures LoadSavedPausedSession(store, DefaultParams).Some? ==>
              && r.app.sid == Some(store.sid.value) && r.app.paused && r.app.poll.None?
              && r.app.params == store.params.GetOr(DefaultParams) && !r.app.setupVisible
              && r.app.store == store
    ensures |r.sent| <= 1
    ensures r.sent != [] <==> LoadSavedPausedSession(store, DefaultParams).Some? && Truthy(store.snapshot)
    ensures Consistent(store) ==> Valid(r.app)
  {
    var a := Fresh(store);
    match LoadSavedPausedSession(store, a.params)
    case None => Out(a.(setupVisible := true), [])
    case Some((sid, params)) =>
      var loaded := a.(sid := Some(sid), params := params, paused := true);
      var (_, sent) := TryAutoResumeFromSnapshot(loaded, reply);
      Out(loaded.(setupVisible := false), sent)
  }

  /** `beforeunload`: a session that is not paused is forgotten; a paused one stays saved. */
  function Unload(a: App): (r: Store)
    ensures !a.paused ==> r == Storage.Empty
    ensures a.paused ==> r == a.store
    ensures Consistent(a.store) ==> Consistent(r)
  {
    if !a.paused then ClearSavedSession(a.store) else a.store
  }

  /** Whatever happened before the reload, a store the client leaves behind resumes exactly
      the paused session it saved, and only a paused client leaves one. */
  lemma UnloadThenColdStart(a: App, reply: SnapshotReply)
    requires Valid(a)
    ensures var st := Unload(a);
            var b := ColdStart(st, reply).app;
            (b.sid.Some? ==> a.paused && b.paused && st.sid == b.sid) &&
            (!a.paused ==> b.sid.None? && b.setupVisible)
  {
  }

  // ---------------------------------------------------------------- events

  datatype Event =
    | Setup(city: Option<string>, month: Option<string>, crop: Option<string>, language: Option<string>, startReply: StartReply)
    | PollInterval
    | StatusArrived(gen: nat, statusReply: StatusReply, now: int)
    | Action(actionId: string, actionReply: ActionReply, now: int)
    | NextClick(actionReply: ActionReply, now: int)
    | PauseButton(pauseReply: PauseReply)
    | RestartButton
    | EndModalRestart
    | PromptTimerFires(now: int)

  /** One event, handled as the source handles it. */
  function Step(a: App, e: Event): (r: Out)
    ensures Valid(a) ==> Valid(r.app)
  {
    match e
    case Setup(city, month, crop, lang, rep) => SubmitSetup(a, city, month, crop, lang, rep)
    case PollInterval => PollTick(a)
    case StatusArrived(gen, rep, now) => Out(PollResponse(a, gen, rep, now), [])
    case Action(id, rep, now) => RunAction(a, id, rep, now)
    case NextClick(rep, now) => NextButton(a, rep, now)
    case PauseButton(rep) => PauseClick(a, rep)
    case RestartButton => RestartAsWritten(a, false)
    case EndModalRestart => RestartAsWritten(a, true)
    case PromptTimerFires(now) => PromptExpiry(a, now)
  }

  /** One event, handled by the corrected client: actions and restarts use the corrected
      handlers of the two findings; every other event is handled as in `Step`. */
  function StepCorrected(a: App, e: Event): (r: Out)
    ensures Valid(a) ==> Valid(r.app)
    ensures !e.Action? && !e.RestartButton? && !e.EndModalRestart? ==> r == Step(a, e)
  {
    match e
    case Action(id, rep, now) => RunActionCorrected(a, id, rep, now)
    case RestartButton => Restart(a, false)
    case EndModalRestart => Restart(a, true)
    case _ => Step(a, e)
  }

  function Run(a: App, es: seq<Event>): App
    decreases |es|
  {
    if es == [] then a else Run(Step(a, es[0]).app, es[1..])
  }

  /** Every sequence of events keeps the client valid: never more than one poll loop, a
      paused client always has a session id, the prompt timer matches the active key. */
  lemma {:induction false} RunKeepsValid(a: App, es: seq<Event>)
    requires Valid(a)
    ensures Valid(Run(a, es))
    decreases |es|
  {
    if es != [] {
      RunKeepsValid(Step(a, es[0]).app, es[1..]);
    }
  }

  function RunCorrected(a: App, es: seq<Event>): App
    decreases |es|
  {
    if es == [] then a else RunCorrected(StepCorrected(a, es[0]).app, es[1..])
  }

  /** The corrected client keeps the same invariant over every sequence of events. */
  lemma {:induction false} RunCorrectedKeepsValid(a: App, es: seq<Event>)
    requires Valid(a)
    ensures Valid(RunCorrected(a, es))
    decreases |es|
  {
    if es != [] {
      RunCorrectedKeepsValid(StepCorrected(a, es[0]).app, es[1..]);
    }
  }

  /** Once an end was shown, no event except a restart or a new setup un-shows it. */
  lemma EndStateSticky(a: App, e: Event)
    requires a.endShown
    requires !e.RestartButton? && !e.EndModalRestart? && !e.Setup?
    ensures Step(a, e).app.endShown
  {
  }

  /** A status response from a loop other than the live one never reaches the view. */
  lemma StaleResponseDiscarded(a: App, gen: nat, reply: StatusReply, now: int)
    requires Valid(a)
    requires a.poll.Some? && gen == a.poll.value.gen
    ensures var b := StartPolling(a);
            PollResponse(b, gen, reply, now) == b.(online := false)
  {
  }

  /** The same prompt key arriving again keeps the deadline computed the first time. */
  lemma RepeatedKeyKeepsDeadline(a: App, p: RequiredAction, q: RequiredAction, t1: int, t2: int)
    requires p.key == q.key
    ensures var b := SchedulePromptTimeout(a, Some(p), t1);
            SchedulePromptTimeout(b, Some(q), t2) == b
  {
  }

  /** Right after an action, whenever it was taken, no prompt timer is left that could
      report a miss. A status that still carries the prompt re-arms it, though: see
      `InFlightStatusRearmsMiss`. */
  lemma ActionSuppressesMiss(a: App, actionId: string, reply: ActionReply, now: int, later: int)
    requires Truthy(a.sid) && !a.paused
    ensures var b := RunAction(a, actionId, reply, now).app;
            PromptExpiry(b, later) == Out(b, [])
  {
  }

  /** As written, an action does not stop a status request already in flight from
      re-arming the prompt: the server answered it before it saw the action, so the reply
      still carries the prompt, the cleared key lets the scheduler arm it again with the
      original deadline, and the miss is reported when that deadline passes. */
  lemma InFlightStatusRearmsMiss(a: App, actionId: string, reply: ActionReply, now: int,
                                 data: StatusData, p: RequiredAction, t: int)
    requires Valid(a) && Truthy(a.sid) && !a.paused && a.poll.Some?
    requires data.requiredAction == Some(p)
    ensures var b := RunAction(a, actionId, reply, now).app;
            var c := PollResponse(b, a.poll.value.gen, StatusOk(data), t);
            var deadline := t + Max(0, p.expiresAt.GetOr(0) - t);
            && c.timer == Some(PromptTimer(p.key, p.title, deadline))
            && PromptExpiry(c, deadline).sent == [PromptMissedReq(a.sid.value)]
  {
    var b := RunAction(a, actionId, reply, now).app;
    assert b.poll == a.poll && b.activeKey.None? && b.sid == a.sid;
    StatusArmsPrompt(b, a.poll.value.gen, data, p, t);
  }

  /** A live loop's status carrying a prompt the client is not tracking arms its timer, and
      that timer reports the miss at its deadline under the current session id. */
  lemma StatusArmsPrompt(b: App, gen: nat, data: StatusData, p: RequiredAction, t: int)
    requires b.poll == Some(PollLoop(gen)) && b.activeKey.None? && Truthy(b.sid)
    requires data.requiredAction == Some(p)
    ensures var c := PollResponse(b, gen, StatusOk(data), t);
            var deadline := t + Max(0, p.expiresAt.GetOr(0) - t);
            && c.timer == Some(PromptTimer(p.key, p.title, deadline))
            && PromptExpiry(c, deadline).sent == [PromptMissedReq(b.sid.value)]
  {
    var deadline := t + Max(0, p.expiresAt.GetOr(0) - t);
    var c := PollResponse(b, gen, StatusOk(data), t);
    StatusSetsTimer(b, gen, data, p, t);
    DueTimerReports(c, deadline);
  }

  /** The timer and session id a live loop's prompt-carrying status leaves behind. */
  lemma StatusSetsTimer(b: App, gen: nat, data: StatusData, p: RequiredAction, t: int)
    requires b.poll == Some(PollLoop(gen)) && b.activeKey.None?
    requires data.requiredAction == Some(p)
    ensures var c := PollResponse(b, gen, StatusOk(data), t);
            && c.timer == Some(PromptTimer(p.key, p.title, t + Max(0, p.expiresAt.GetOr(0) - t)))
            && c.sid == b.sid
  {
    RenderArmsPrompt(b, data, p, t);
    assert PollResponse(b, gen, StatusOk(data), t) == RenderStatus(b, data, t).(online := true);
  }

  /** Rendering a status whose prompt the client is not tracking arms that prompt's timer. */
  lemma RenderArmsPrompt(b: App, data: StatusData, p: RequiredAction, t: int)
    requires b.activeKey.None? && data.requiredAction == Some(p)
    ensures var r := RenderStatus(b, data, t);
            r.timer == Some(PromptTimer(p.key, p.title, t + Max(0, p.expiresAt.GetOr(0) - t))) && r.sid == b.sid
  {
    RenderKeepsSchedule(b, data, p, t);
    ScheduleArmsNewKey(b, p, t);
  }

  /** Rendering leaves the prompt timer the scheduler made of the status's prompt. */
  lemma RenderKeepsSchedule(b: App, data: StatusData, p: RequiredAction, t: int)
    requires data.requiredAction == Some(p)
    ensures RenderStatus(b, data, t).timer == SchedulePromptTimeout(b, Some(p), t).timer
  {
  }

  /** A prompt whose key is not active gets a timer at its own deadline. */
  lemma ScheduleArmsNewKey(b: App, p: RequiredAction, t: int)
    requires b.activeKey != Some(p.key)
    ensures SchedulePromptTimeout(b, Some(p), t).timer ==
              Some(PromptTimer(p.key, p.title, t + Max(0, p.expiresAt.GetOr(0) - t)))
  {
  }

  /** A timer that is due reports exactly one miss under the session id. */
  lemma DueTimerReports(c: App, deadline: int)
    requires c.timer.Some? && c.timer.value.deadline == deadline && Truthy(c.sid)
    ensures PromptExpiry(c, deadline).sent == [PromptMissedReq(c.sid.value)]
  {
  }

  /** A concrete timeline: a prompt due at 6000 ms, acted on at
      5000 ms; a status sent before the action lands at 5100 ms and the miss is still
      reported at 6000 ms. */
  lemma InFlightStatusScenario()
    ensures var p := RequiredAction("light_on", "Turn on light", Some(6000));
            var a := Fresh(Storage.Empty).(sid := Some("s1"), poll := Some(PollLoop(0)), nextGen := 1);
            var b := SchedulePromptTimeout(a, Some(p), 1000);
            var c := RunAction(b, "toggle_light", ActionOk(NoFeedback), 5000).app;
            var d := PollResponse(c, 0, StatusOk(StatusData(None, None, Some(9000), None, Some(p))), 5100);
            PromptExpiry(d, 6000).sent == [PromptMissedReq("s1")]
  {
    var p := RequiredAction("light_on", "Turn on light", Some(6000));
    var a := Fresh(Storage.Empty).(sid := Some("s1"), poll := Some(PollLoop(0)), nextGen := 1);
    var b := SchedulePromptTimeout(a, Some(p), 1000);
    InFlightStatusRearmsMiss(b, "toggle_light", ActionOk(NoFeedback), 5000,
                             StatusData(None, None, Some(9000), None, Some(p)), p, 5100);
  }

  /** The corrected action handler: as `RunAction`, and once the action was sent the poll
      loop is restarted, so a status request sent before the server saw the action is
      discarded as stale instead of re-arming the prompt it answered. */
  function RunActionCorrected(a: App, actionId: string, reply: ActionReply, now: int): (r: Out)
    ensures r.sent == RunAction(a, actionId, reply, now).sent
    ensures !Truthy(a.sid) || a.paused ==> r == Out(a, [])
    ensures Truthy(a.sid) && !a.paused ==>
              && r.app.timer.None? && r.app.activeKey.None?
              && r.app.sid == a.sid && r.app.store == a.store
              && r.app.poll.Some? == a.poll.Some?
    ensures Valid(a) && Truthy(a.sid) && !a.paused && a.poll.Some? ==> r.app.poll != a.poll
    ensures Valid(a) ==> Valid(r.app)
  {
    var w := RunAction(a, actionId, reply, now);
    if w.sent != [] && w.app.poll.Some? then Out(StartPolling(w.app), w.sent) else w
  }

  /** Corrected: a status from the loop that was live when the action was sent no longer
      re-arms anything; no miss can be reported for the prompt the player acted on. */
  lemma InFlightStatusIgnoredAfterAction(a: App, actionId: string, reply: ActionReply, now: int,
                                         data: StatusData, t: int, later: int)
    requires Valid(a) && Truthy(a.sid) && !a.paused && a.poll.Some?
    ensures var b := RunActionCorrected(a, actionId, reply, now).app;
            var c := PollResponse(b, a.poll.value.gen, StatusOk(data), t);
            PromptExpiry(c, later) == Out(c, [])
  {
  }

  /** Corrected, and still complete: a status from the new loop, sent after the server saw
      the action, re-arms a prompt the action did not fix, so that miss is still reported. */
  lemma UnfixedPromptStillReported(a: App, actionId: string, reply: ActionReply, now: int,
                                   data: StatusData, p: RequiredAction, t: int)
    requires Valid(a) && Truthy(a.sid) && !a.paused && a.poll.Some?
    requires data.requiredAction == Some(p)
    ensures var b := RunActionCorrected(a, actionId, reply, now).app;
            var c := PollResponse(b, b.poll.value.gen, StatusOk(data), t);
            var deadline := t + Max(0, p.expiresAt.GetOr(0) - t);
            && c.timer == Some(PromptTimer(p.key, p.title, deadline))
            && PromptExpiry(c, deadline).sent == [PromptMissedReq(a.sid.value)]
  {
    var b := RunActionCorrected(a, actionId, reply, now).app;
    assert b.poll.Some? && b.activeKey.None? && b.sid == a.sid;
    StatusArmsPrompt(b, b.poll.value.gen, data, p, t);
  }

  /** A prompt is reported missed at most once: after firing, the timer is spent. */
  lemma MissReportedOnce(a: App, t1: int, t2: int)
    ensures var b := PromptExpiry(a, t1).app;
            b.timer.None? || b == a
  {
  }

  /** A healthy, non-harvest status keeps a running session running. */
  lemma HealthyStatusKeepsPolling(b: App, data: StatusData, now: int)
    requires b.poll.Some? && !b.endShown
    requires data.stage != Some(HarvestStage) && !IsDead(data)
    ensures var c := PollResponse(b, b.poll.value.gen, StatusOk(data), now);
            !c.endShown && c.poll == b.poll && c.lastStage == OrElse(data.stage, "Seedling")
  {
  }

  /** A harvest status ends a running session as a harvest and stops its polling. */
  lemma HarvestStatusEnds(c: App, data: StatusData, now: int)
    requires c.poll.Some? && !c.endShown
    requires data.stage == Some(HarvestStage)
    ensures var d := PollResponse(c, c.poll.value.gen, StatusOk(data), now);
            d.endShown && d.endModal == HarvestModal && d.poll.None?
  {
  }

  /** Scenario: a freshly started session sees "Fruiting" at a healthy reading (no end),
      then "Harvestable": the end fires once, as a harvest, and polling stops. */
  lemma HarvestScenario(crop: string, sid: string, health: int, t1: int, t2: int)
    requires health >= 7050
    ensures var b := SubmitSetup(Fresh(Storage.Empty), Some("Lahore"), Some("July"), Some(crop), Some("en"), Started(sid)).app;
            var c := PollResponse(b, 0, StatusOk(StatusData(Some(crop), Some("Fruiting"), Some(health), None, None)), t1);
            var d := PollResponse(c, 0, StatusOk(StatusData(Some(crop), Some("Harvestable"), Some(health), None, None)), t2);
            && b.poll == Some(PollLoop(0))
            && !c.endShown && c.poll == Some(PollLoop(0)) && c.lastStage == "Fruiting"
            && d.endShown && d.endModal == HarvestModal && d.poll.None?
  {
    var b := SubmitSetup(Fresh(Storage.Empty), Some("Lahore"), Some("July"), Some(crop), Some("en"), Started(sid)).app;
    assert b.poll == Some(PollLoop(0)) && !b.endShown by {
      assert Fresh(Storage.Empty).nextGen == 0;
    }
    var fruiting := StatusData(Some(crop), Some("Fruiting"), Some(health), None, None);
    DeathIsBelowSeventyAndAHalf(fruiting);
    HealthyStatusKeepsPolling(b, fruiting, t1);
    var c := PollResponse(b, 0, StatusOk(fruiting), t1);
    HarvestStatusEnds(c, StatusData(Some(crop), Some("Harvestable"), Some(health), None, None), t2);
  }

  /** Scenario: a "light_on" prompt due in 5000 ms that nobody acts on yields exactly one
      miss report and exactly one "Missed" line. */
  lemma MissedPromptScenario()
    ensures var a := Fresh(Storage.Empty).(sid := Some("s1"), poll := Some(PollLoop(0)), nextGen := 1);
            var b := SchedulePromptTimeout(a, Some(RequiredAction("light_on", "Turn on light", Some(6000))), 1000);
            var early := PromptExpiry(b, 5999);
            var fired := PromptExpiry(b, 6000);
            var again := PromptExpiry(fired.app, 6001);
            && b.timer == Some(PromptTimer("light_on", "Turn on light", 6000))
            && early.sent == [] && early.app == b
            && fired.sent == [PromptMissedReq("s1")]
            && fired.app.feedback == [Feedback.Item("Missed: Turn on light", 14000)]
            && again.sent == []
  {
    var a := Fresh(Storage.Empty).(sid := Some("s1"), poll := Some(PollLoop(0)), nextGen := 1);
    var b := SchedulePromptTimeout(a, Some(RequiredAction("light_on", "Turn on light", Some(6000))), 1000);
    assert b.timer == Some(PromptTimer("light_on", "Turn on light", 6000)) && b.feedback == [];
    var item := Feedback.Item("Missed: Turn on light", 14000);
    assert "Missed: " + "Turn on light" == "Missed: Turn on light";
    Feedback.AddToEmpty("Missed: Turn on light", 6000, Feedback.FeedbackTtlMs);
    var early := PromptExpiry(b, 5999);
    assert early.sent == [] && early.app == b;
    var fired := PromptExpiry(b, 6000);
    assert fired.sent == [PromptMissedReq("s1")];
    assert fired.app.feedback == [item];
    var again := PromptExpiry(fired.app, 6001);
    assert again.sent == [];
  }
}

=== FILE: client_helpers.dfy ===
/** Pure helpers of the browser client: image slugs, the crop -> stage order table,
    the stage image path, the "next stage" hint and numeric placeholders. */
module ClientHelpers {
  import opened Common

  /** ASCII lower-casing, the part of `toLowerCase` that can survive the slug filter. */
  function Lower(c: char): char {
    if 'A' <= c <= 'Z' then (c as int + 32) as char else c
  }

  /** The characters `[a-z0-9_]` a slug may keep. */
  predicate SlugChar(c: char) {
    ('a' <= c <= 'z') || ('0' <= c <= '9') || c == '_'
  }

  predicate IsSlug(s: string) {
    forall i :: 0 <= i < |s| ==> SlugChar(s[i])
  }

  /** Lower-case, then drop whitespace and every character outside `[a-z0-9_]`.
      Whitespace is outside that set, so one filter covers both replacements. */
  function Slug(s: string): (r: string)
    ensures IsSlug(r)
    ensures |r| <= |s|
    ensures forall i :: 0 <= i < |s| && !SlugChar(Lower(s[i])) ==> Lower(s[i]) !in r
    decreases |s|
  {
    if s == [] then []
    else
      var c := Lower(s[0]);
      (if SlugChar(c) then [c] else []) + Slug(s[1..])
  }

  /** A string that is already a slug is its own slug. */
  lemma {:induction false} SlugOfSlug(s: string)
    requires IsSlug(s)
    ensures Slug(s) == s
    decreases |s|
  {
    if s != [] {
      assert SlugChar(s[0]) && Lower(s[0]) == s[0];
      assert IsSlug(s[1..]) by {
        forall i | 0 <= i < |s[1..]| ensures SlugChar(s[1..][i]) {
          assert s[1..][i] == s[i + 1];
        }
      }
      SlugOfSlug(s[1..]);
    }
  }

  /** Slugging twice is slugging once, and the slugs are exactly the fixed points. */
  lemma SlugIdempotent(s: string)
    ensures Slug(Slug(s)) == Slug(s)
    ensures Slug(s) == s <==> IsSlug(s)
  {
    SlugOfSlug(Slug(s));
    if IsSlug(s) {
      SlugOfSlug(s);
    }
  }

  /** The slug of a single character: its lower-case form if that is a slug character,
      otherwise nothing. */
  lemma SlugSingle(c: char)
    ensures Slug([c]) == if SlugChar(Lower(c)) then [Lower(c)] else []
  {
    assert [c][1..] == [];
  }

  /** Slugging works character by character: it splits over concatenation. With
      `SlugSingle` this pins the slug of every string. */
  lemma {:induction false} SlugAppend(s: string, t: string)
    ensures Slug(s + t) == Slug(s) + Slug(t)
    decreases |s|
  {
    if s == [] {
      assert s + t == t;
    } else {
      assert (s + t)[0] == s[0] && (s + t)[1..] == s[1..] + t;
      SlugAppend(s[1..], t);
    }
  }

  /** `STAGE_MAP`: the ordered stages the client knows images for, per crop. */
  function StageOrder(crop: string): (r: Option<seq<string>>)
    ensures r.Some? ==> |r.value| > 0 && r.value[0] == "Seedling"
    ensures r.Some? <==> crop in {"Mint", "Spinach", "Cherry Tomato"}
  {
    if crop == "Mint" || crop == "Spinach" then Some(["Seedling", "Vegetative", "Maturity"])
    else if crop == "Cherry Tomato" then Some(["Seedling", "Vegetative", "Flowering", "Fruiting", "Maturity"])
    else None
  }

  /** The (crop, stage) pair an image is chosen for: an unknown crop falls back to
      "Cherry Tomato", an unknown stage to the crop's last stage. */
  function ImageChoice(crop: string, stage: string): (r: (string, string))
    ensures StageOrder(r.0).Some?
    ensures r.1 in StageOrder(r.0).value
    ensures StageOrder(crop).Some? ==> r.0 == crop
    ensures StageOrder(crop).None? ==> r.0 == "Cherry Tomato"
    ensures stage in StageOrder(r.0).value ==> r.1 == stage
    ensures stage !in StageOrder(r.0).value ==> r.1 == StageOrder(r.0).value[|StageOrder(r.0).value| - 1]
  {
    var chosen := if StageOrder(crop).Some? then crop else "Cherry Tomato";
    var order := StageOrder(chosen).value;
    (chosen, if stage in order then stage else order[|order| - 1])
  }

  /** `findImagePath`: `img/<crop slug>_<stage slug>.png` for the chosen pair. The name
      between the directory and the extension is a slug, so the path never leaves `img/`. */
  function FindImagePath(crop: string, stage: string): (r: string)
    ensures 9 <= |r| && r[..4] == "img/" && r[|r| - 4..] == ".png"
    ensures IsSlug(r[4..|r| - 4]) && '_' in r[4..|r| - 4]
  {
    var (c, s) := ImageChoice(crop, stage);
    SlugPathShape(Slug(c), Slug(s));
    "img/" + Slug(c) + "_" + Slug(s) + ".png"
  }

  /** The shape of an image path built from two slugs. */
  lemma SlugPathShape(x: string, y: string)
    requires IsSlug(x) && IsSlug(y)
    ensures var r := "img/" + x + "_" + y + ".png";
            9 <= |r| && r[..4] == "img/" && r[|r| - 4..] == ".png" &&
            r[4..|r| - 4] == x + "_" + y && IsSlug(x + "_" + y) && '_' in x + "_" + y
  {
    var name := x + "_" + y;
    assert name[|x|] == '_';
    assert IsSlug(name) by {
      forall i | 0 <= i < |name| ensures SlugChar(name[i]) {
        if i < |x| { assert name[i] == x[i]; }
        else if i > |x| { assert name[i] == y[i - |x| - 1]; }
      }
    }
    var r := "img/" + name + ".png";
    assert r[4..|r| - 4] == name;
  }

  /** The fallbacks are resolved once: asking for the chosen pair gives the same path. */
  lemma ChosenPairKeepsPath(crop: string, stage: string)
    ensures var (c, s) := ImageChoice(crop, stage);
            ImageChoice(c, s) == (c, s) && FindImagePath(c, s) == FindImagePath(crop, stage)
  {
  }

  /** `setImageToNextStage`: the image of the stage after `lastStage` (after "Seedling"
      when `lastStage` is unknown), or no change when the crop has no stage table. */
  function NextStageImage(crop: string, lastStage: string): (r: Option<string>)
    ensures StageOrder(crop).None? <==> r.None?
    ensures StageOrder(crop).Some? ==>
              var order := StageOrder(crop).value;
              var cur := if lastStage in order then lastStage else "Seedling";
              var i := IndexOf(order, cur);
              && 0 <= i < |order|
              && (i < |order| - 1 ==> r == Some(FindImagePath(crop, order[i + 1])))
              && (i == |order| - 1 ==> r == Some(FindImagePath(crop, cur)))
  {
    match StageOrder(crop)
    case None => None
    case Some(order) =>
      var cur := if lastStage in order then lastStage else "Seedling";
      Some(NextStageImageIn(crop, order, cur))
  }

  /** The next-stage image for a stage order, from a stage `cur` that is in it. */
  function NextStageImageIn(crop: string, order: seq<string>, cur: string): (r: string)
    requires cur in order
    ensures var i := IndexOf(order, cur);
            && (i < |order| - 1 ==> r == FindImagePath(crop, order[i + 1]))
            && (i == |order| - 1 ==> r == FindImagePath(crop, cur))
  {
    var k := NextStageIndex(order, cur);
    var next := order[k];
    assert IndexOf(order, cur) < |order| - 1 ==> next == order[IndexOf(order, cur) + 1];
    assert IndexOf(order, cur) == |order| - 1 ==> next == cur;
    FindImagePath(crop, next)
  }

  /** The next-stage hint never passes the last stage and otherwise moves exactly one on. */
  lemma NextStageNeverPassesLast(crop: string, lastStage: string)
    requires StageOrder(crop).Some?
    ensures var order := StageOrder(crop).value;
            var cur := if lastStage in order then lastStage else "Seedling";
            var k := NextStageIndex(order, cur);
            k < |order| && k >= IndexOf(order, cur) &&
            (IndexOf(order, cur) < |order| - 1 ==> k == IndexOf(order, cur) + 1) &&
            (IndexOf(order, cur) == |order| - 1 ==> order[k] == cur)
  {
  }

  /** A JavaScript value read where a number is expected. */
  datatype Reading = Missing | NotANumber | Number(v: real)

  /** What a numeric field renders as: the placeholder dash, or the number at fixed precision. */
  datatype Shown = Dash | Fixed(v: real, digits: nat)

  /** `toFixedOrDash`: a placeholder for anything that is not a number, never zero. */
  function ToFixedOrDash(n: Reading, k: Option<nat>): (r: Shown)
    ensures r.Dash? <==> !n.Number?
    ensures n.Number? ==> r.v == n.v && r.digits == k.GetOr(0)
  {
    match n
    case Number(v) => Fixed(v, k.GetOr(0))
    case _ => Dash
  }

  /** A zero reading is shown as a number, distinguishable from a missing one. */
  lemma ZeroIsNotMissing(k: Option<nat>)
    ensures ToFixedOrDash(Number(0.0), k) != ToFixedOrDash(Missing, k)
    ensures ToFixedOrDash(NotANumber, k) == ToFixedOrDash(Missing, k)
  {
  }
}

=== FILE: common.dfy ===
/** Small shared vocabulary: an optional value and JavaScript-style truthiness of strings. */
module Common {

  /** A value that may be absent (JavaScript `null`/`undefined`, Python `None`). */
  datatype Option<+T> = None | Some(value: T) {

    /** The carried value, or `default` when absent. */
    function GetOr(default: T): T {
      match this
      case Some(v) => v
      case None => default
    }
  }

  /** A string slot is truthy in JavaScript/Python when it is present and not empty. */
  predicate Truthy(s: Option<string>) {
    s.Some? && s.value != ""
  }

  /** `a || b` on optional strings: the first truthy one, else `b`. */
  function OrElse(a: Option<string>, b: string): (r: string)
    ensures Truthy(a) ==> r == a.value
    ensures !Truthy(a) ==> r == b
  {
    if Truthy(a) then a.value else b
  }

  function Max(a: int, b: int): int {
    if a >= b then a else b
  }

  function Min(a: int, b: int): int {
    if a <= b then a else b
  }

  /** `max(lo, min(hi, n))`, the clamp the engine uses for health and humidity. */
  function Clamp(n: int, lo: int, hi: int): (r: int)
    requires lo <= hi
    ensures lo <= r <= hi
    ensures lo <= n <= hi ==> r == n
    ensures n < lo ==> r == lo
    ensures n > hi ==> r == hi
  {
    Max(lo, Min(hi, n))
  }

  /** The first position of `x`, or -1: JavaScript's `indexOf`, and Python's
      `xs.index(x) if x in xs else -1`. */
  function IndexOf(xs: seq<string>, x: string): (r: int)
    ensures -1 <= r < |xs|
    ensures r == -1 <==> x !in xs
    ensures r >= 0 ==> xs[r] == x && forall j :: 0 <= j < r ==> xs[j] != x
  {
    if xs == [] then -1
    else if xs[0] == x then 0
    else
      var k := IndexOf(xs[1..], x);
      if k == -1 then -1 else k + 1
  }

  /** The index `min(len - 1, idx + 1)` that both the client's next-stage image and the
      engine's stage advance move to; an unknown stage gives index 0. */
  function NextStageIndex(order: seq<string>, stage: string): (r: nat)
    requires |order| > 0
    ensures r < |order|
    ensures var i := IndexOf(order, stage);
            (i + 1 < |order| ==> r == i + 1) && (i + 1 >= |order| ==> r == |order| - 1)
    ensures stage !in order ==> r == 0
  {
    Min(|order| - 1, IndexOf(order, stage) + 1)
  }
}

=== FILE: educator.dfy ===
/** The simulation engine (`HydroGameEngine`) as an immutable record. Readings are integer
    hundredths (health 100.00 is 10000, EC 1.80 is 180, 22.5 degrees is 2250); the clock is
    in whole hours. The random and trigonometric environment updates of a tick are not
    computed here: a tick receives the readings they produced as a parameter. */
module Educator {
  import opened Common
  import opened EngineText
  import opened Stages
  import G = PromptGate

  /** 100.00: full tank, full health, the top of the humidity scale. */
  const Full: int := 10000
  /** The tank counts as low below 20.00. */
  const WaterLowBelow: int := 2000
  /** `temp_offset` is kept within plus or minus 5.00 degrees. */
  const OffsetBound: int := 500
  /** One tick is two hours. */
  const HoursPerTick: int := 2

  datatype Range = Range(lo: int, hi: int)

  /** The crop's comfort table (`crops.json`): EC, pH, humidity and temperature ranges and
      the daily light need in hours (`light_needs[0]`). */
  datatype CropProfile = CropProfile(ec: Range, ph: Range, humidity: Range, temperature: Range, lightNeed: int)

  /** One city-month entry of `climate.json`; `sunlight` is in whole hours. */
  datatype Climate = Climate(lowTemp: int, highTemp: int, meanTemp: int, humidity: int, sunlight: int)

  /** Everything the engine loads for a crop: its profile, its uptake table (stage day
      ranges in file order) and its yield per plant in kilograms. */
  datatype CropData = CropData(profile: CropProfile, stages: seq<StageSpan>, yieldPerPlant: real)

  /** The static data files, as constant maps: climate by city then month, crops by name. */
  datatype Catalog = Catalog(climates: map<string, map<string, Climate>>, crops: map<string, CropData>)

  datatype Engine = Engine(
    city: string, month: string, crop: string, data: CropData, climate: Climate,
    paused: bool, running: bool,
    tick: int, day: int, hour: int, stage: string,
    lightOn: bool, dailyLight: int,
    water: int, ec: int, ph: int, health: int, temp: int, humidity: int,
    tempOffset: int, inside: bool, tempLockUntil: int,
    gate: G.Gate, notifications: seq<Label>, feedback: seq<Note>)

  /** The constructor's lookups all succeed (otherwise Python raises `KeyError`). */
  predicate Known(c: Catalog, city: string, month: string, crop: string) {
    city in c.climates && month in c.climates[city] && crop in c.crops
  }

  /** `HydroGameEngine(city, month, crop)`: day 0 hour 0 "Seedling", full water and health,
      EC and pH at the top of the crop's ranges, temperature and humidity at the month's
      means, light off, no prompt, not paused and not running. */
  function NewEngine(c: Catalog, city: string, month: string, crop: string): (r: Option<Engine>)
    ensures r.Some? <==> Known(c, city, month, crop)
    ensures r.Some? ==>
              var e := r.value;
              && e.city == city && e.month == month && e.crop == crop
              && e.data == c.crops[crop] && e.climate == c.climates[city][month]
              && e.day == 0 && e.hour == 0 && e.tick == 0 && e.stage == "Seedling"
              && e.water == Full && e.health == Full && !e.lightOn && e.dailyLight == 0
              && e.ec == e.data.profile.ec.hi && e.ph == e.data.profile.ph.hi
              && e.temp == e.climate.meanTemp && e.humidity == e.climate.humidity
              && e.tempOffset == 0 && !e.inside && e.gate == G.Initial
              && !e.paused && !e.running && e.feedback == [] && e.notifications == []
  {
    if !Known(c, city, month, crop) then None
    else
      var data := c.crops[crop];
      var climate := c.climates[city][month];
      Some(Engine(city, month, crop, data, climate,
                  false, false,
                  0, 0, 0, "Seedling",
                  false, 0,
                  Full, data.profile.ec.hi, data.profile.ph.hi, Full, climate.meanTemp, climate.humidity,
                  0, false, -1,
                  G.Initial, [], []))
  }

  /** The clock invariant: the hour is even and within a day. */
  predicate ClockOk(e: Engine) {
    0 <= e.hour <= 22 && e.hour % 2 == 0
  }

  /** The tick counter agrees with the clock: twelve two-hour ticks per day. */
  predicate TickAligned(e: Engine) {
    e.tick == 12 * e.day + e.hour / 2
  }

  lemma NewEngineClockOk(c: Catalog, city: string, month: string, crop: string)
    requires Known(c, city, month, crop)
    ensures ClockOk(NewEngine(c, city, month, crop).value) && TickAligned(NewEngine(c, city, month, crop).value)
  {
  }

  // ---------------------- User nudges ----------------------

  /** `toggle_light`: only the light and the feedback change. */
  function ToggleLight(e: Engine, on: bool): (r: Engine)
    ensures r.lightOn == on && r.feedback == e.feedback + [LightTurned(on)]
    ensures r.(lightOn := e.lightOn, feedback := e.feedback) == e
  {
    e.(lightOn := on, feedback := e.feedback + [LightTurned(on)])
  }

  /** `refill_water`: the tank is full again; nothing else but the feedback changes. */
  function RefillWater(e: Engine): (r: Engine)
    ensures r.water == Full && r.feedback == e.feedback + [WaterRefilled]
    ensures r.(water := e.water, feedback := e.feedback) == e
  {
    e.(water := Full, feedback := e.feedback + [WaterRefilled])
  }

  /** The midpoint of a range, as `normalize_ec`/`normalize_ph` set it. */
  function Midpoint(rg: Range): (r: int)
    ensures rg.lo <= rg.hi ==> rg.lo <= r <= rg.hi
    ensures r - rg.lo <= rg.hi - r <= r - rg.lo + 1
  {
    (rg.lo + rg.hi) / 2
  }

  /** `normalize_ec`: EC moves to the middle of the crop's range, so it is in range. */
  function NormalizeEc(e: Engine): (r: Engine)
    ensures e.data.profile.ec.lo <= e.data.profile.ec.hi ==> e.data.profile.ec.lo <= r.ec <= e.data.profile.ec.hi
    ensures r.feedback == e.feedback + [EcNormalized(e.ec, r.ec)]
    ensures r.(ec := e.ec, feedback := e.feedback) == e
  {
    var mid := Midpoint(e.data.profile.ec);
    e.(ec := mid, feedback := e.feedback + [EcNormalized(e.ec, mid)])
  }

  /** `normalize_ph`: pH moves to the middle of the crop's range. */
  function NormalizePh(e: Engine): (r: Engine)
    ensures e.data.profile.ph.lo <= e.data.profile.ph.hi ==> e.data.profile.ph.lo <= r.ph <= e.data.profile.ph.hi
    ensures r.feedback == e.feedback + [PhNormalized(e.ph, r.ph)]
    ensures r.(ph := e.ph, feedback := e.feedback) == e
  {
    var mid := Midpoint(e.data.profile.ph);
    e.(ph := mid, feedback := e.feedback + [PhNormalized(e.ph, mid)])
  }

  /** `spray_mist`: humidity up by 5.00, never above 100.00. */
  function SprayMist(e: Engine): (r: Engine)
    ensures 0 <= r.humidity <= Full
    ensures 0 <= e.humidity <= Full ==> r.humidity >= e.humidity
    ensures 0 <= e.humidity <= Full - 500 ==> r.humidity == e.humidity + 500
    ensures Full - 500 < e.humidity ==> r.humidity == Full
    ensures r.(humidity := e.humidity, feedback := e.feedback) == e
  {
    e.(humidity := Clamp(e.humidity + 500, 0, Full), feedback := e.feedback + [HumiditySprayed])
  }

  /** `turn_on_dehumidifier`: humidity down by 10.00, never below 0. */
  function Dehumidify(e: Engine): (r: Engine)
    ensures 0 <= r.humidity <= Full
    ensures 0 <= e.humidity <= Full ==> r.humidity <= e.humidity
    ensures 1000 <= e.humidity <= Full ==> r.humidity == e.humidity - 1000
    ensures e.humidity < 1000 ==> r.humidity == 0
    ensures r.(humidity := e.humidity, feedback := e.feedback) == e
  {
    e.(humidity := Clamp(e.humidity - 1000, 0, Full), feedback := e.feedback + [Dehumidified])
  }

  /** `move_to_shade`: the offset drops by 4.00 but not below -5.00, the plant is inside,
      the temperature drops by 6.00 at once and the model leaves it alone for three ticks. */
  function MoveToShade(e: Engine): (r: Engine)
    ensures r.tempOffset == Max(-OffsetBound, e.tempOffset - 400)
    ensures -OffsetBound <= e.tempOffset <= OffsetBound ==> -OffsetBound <= r.tempOffset <= OffsetBound
    ensures r.inside && r.temp == e.temp - 600 && r.tempLockUntil == e.tick + 3
    ensures r.(tempOffset := e.tempOffset, inside := e.inside, temp := e.temp,
               tempLockUntil := e.tempLockUntil, feedback := e.feedback) == e
  {
    e.(tempOffset := Max(-OffsetBound, e.tempOffset - 400), inside := true, temp := e.temp - 600,
       tempLockUntil := e.tick + 3, feedback := e.feedback + [CooledDown])
  }

  /** `move_to_sunlight`: the offset rises by 4.00 but not above 5.00, the plant is outside,
      the temperature rises by 4.00 at once and is locked for three ticks. */
  function MoveToSunlight(e: Engine): (r: Engine)
    ensures r.tempOffset == Min(OffsetBound, e.tempOffset + 400)
    ensures -OffsetBound <= e.tempOffset <= OffsetBound ==> -OffsetBound <= r.tempOffset <= OffsetBound
    ensures !r.inside && r.temp == e.temp + 400 && r.tempLockUntil == e.tick + 3
    ensures r.(tempOffset := e.tempOffset, inside := e.inside, temp := e.temp,
               tempLockUntil := e.tempLockUntil, feedback := e.feedback) == e
  {
    e.(tempOffset := Min(OffsetBound, e.tempOffset + 400), inside := false, temp := e.temp + 400,
       tempLockUntil := e.tick + 3, feedback := e.feedback + [HeatedUp])
  }

  /** The bounded user nudges. */
  datatype Nudge = Shade | Sunlight | Spray | Dry

  function ApplyNudge(e: Engine, n: Nudge): Engine {
    match n
    case Shade => MoveToShade(e)
    case Sunlight => MoveToSunlight(e)
    case Spray => SprayMist(e)
    case Dry => Dehumidify(e)
  }

  function ApplyNudges(e: Engine, ns: seq<Nudge>): Engine
    decreases |ns|
  {
    if ns == [] then e else ApplyNudges(ApplyNudge(e, ns[0]), ns[1..])
  }

  /** The offset stays in [-5.00, 5.00] and humidity in [0, 100.00]. */
  predicate NudgeBounds(e: Engine) {
    -OffsetBound <= e.tempOffset <= OffsetBound && 0 <= e.humidity <= Full
  }

  /** Any sequence of shade, sunlight, spray and dehumidify presses keeps the offset and
      humidity within their bounds. */
  lemma {:induction false} NudgesKeepBounds(e: Engine, ns: seq<Nudge>)
    requires NudgeBounds(e)
    ensures NudgeBounds(ApplyNudges(e, ns))
    decreases |ns|
  {
    if ns != [] {
      var e1 := ApplyNudge(e, ns[0]);
      assert NudgeBounds(e1);
      NudgesKeepBounds(e1, ns[1..]);
    }
  }

  // ---------------------- Prompts on the engine ----------------------

  /** `resolve_prompt`: the gate is released, and "Action handled in time." is added when the
      user acted on a prompt whose penalty was still staged. */
  function ResolvePrompt(e: Engine, acted: bool, now: int): (r: Engine)
    ensures r.gate == G.Resolve(e.gate, acted, now)
    ensures r.feedback == e.feedback + (if G.HandledInTime(e.gate, acted) then [HandledInTime] else [])
    ensures r.(gate := e.gate, feedback := e.feedback) == e
  {
    e.(gate := G.Resolve(e.gate, acted, now),
       feedback := e.feedback + (if G.HandledInTime(e.gate, acted) then [HandledInTime] else []))
  }

  /** `prompt_missed` on the engine: the gate's outcome replaces gate and health, and the
      "Missed" note joins the feedback. */
  function PromptMissed(e: Engine, now: int): (r: Engine)
    ensures e.gate.active.None? ==> r == e
    ensures e.gate.active.Some? ==>
              && r.gate.active.None? && 0 <= r.health <= Full
              && r.health == Clamp(e.health - G.MissPenalty(e.gate, e.gate.active.value.key), 0, Full)
              && |r.feedback| == |e.feedback| + 1
    ensures r.(gate := e.gate, health := e.health, feedback := e.feedback) == e
  {
    var m := G.Miss(e.gate, e.health, now);
    match m.note
    case None => e
    case Some(n) => e.(gate := m.gate, health := m.health, feedback := e.feedback + [n])
  }

  /** Missing a prompt never raises health and never takes it below zero, as long as every
      staged penalty is positive (which raising keeps true). */
  lemma MissNeverHeals(e: Engine, now: int)
    requires 0 <= e.health <= Full && G.PenaltiesPositive(e.gate)
    ensures 0 <= PromptMissed(e, now).health <= e.health
  {
  }

  // ---------------------- The tick ----------------------

  /** The readings after the tick's environment step (water uptake, EC and pH drift, the
      temperature and humidity schedule with their jitter), which this model takes as given. */
  datatype Readings = Readings(water: int, ec: int, ph: int, temp: int, humidity: int)

  /** The light part of `simulate_tick`: two hours of light are counted while the hour is
      within the city's sunlight or the grow light is on, and the grow light switches itself
      off once the day's need is met. */
  function LightAccounting(e: Engine): (r: Engine)
    ensures e.hour < e.climate.sunlight || e.lightOn ==> r.dailyLight == e.dailyLight + HoursPerTick
    ensures !(e.hour < e.climate.sunlight || e.lightOn) ==> r.dailyLight == e.dailyLight
    ensures r.lightOn <==> e.lightOn && r.dailyLight < e.data.profile.lightNeed
    ensures r.feedback == e.feedback + (if e.lightOn && !r.lightOn then [DailyLightMet] else [])
    ensures r.(dailyLight := e.dailyLight, lightOn := e.lightOn, feedback := e.feedback) == e
  {
    var daily := if e.hour < e.climate.sunlight || e.lightOn then e.dailyLight + HoursPerTick else e.dailyLight;
    if e.lightOn && daily >= e.data.profile.lightNeed then
      e.(dailyLight := daily, lightOn := false, feedback := e.feedback + [DailyLightMet])
    else
      e.(dailyLight := daily)
  }

  /** Natural light alone cannot reach the day's need and the grow light is off. */
  predicate LightShort(e: Engine) {
    e.dailyLight + Max(0, e.climate.sunlight - e.hour) < e.data.profile.lightNeed && !e.lightOn
  }

  /** The conditions `_check_conditions_with_prompts` evaluates, in its order. */
  function Conditions(e: Engine): (r: seq<G.Condition>)
    ensures |r| == 9
    ensures r[0] == G.Condition("water_low", e.water < WaterLowBelow, WaterLow)
    ensures r[8] == G.Condition("light_on", LightShort(e), NotEnoughDaylight(e.data.profile.lightNeed))
    ensures forall i :: 0 <= i < 9 ==> r[i].key != "" && r[i].title.NotEnoughDaylight? == (i == 8)
  {
    var p := e.data.profile;
    [ G.Condition("water_low", e.water < WaterLowBelow, WaterLow),
      G.Condition("ec_low", e.ec < p.ec.lo, EcLow),
      G.Condition("ec_high", e.ec > p.ec.hi, EcHigh),
      G.Condition("ph_out", e.ph < p.ph.lo || e.ph > p.ph.hi, PhDrifting),
      G.Condition("humidity_low", e.humidity < p.humidity.lo, TooDry(e.humidity)),
      G.Condition("humidity_high", e.humidity > p.humidity.hi, TooHumid(e.humidity)),
      G.Condition("temp_low", e.temp < p.temperature.lo, TempLow(e.temp)),
      G.Condition("temp_high", e.temp > p.temperature.hi, TempHigh(e.temp)),
      G.Condition("light_on", LightShort(e), NotEnoughDaylight(p.lightNeed)) ]
  }

  /** `_check_conditions_with_prompts`: the bad conditions' labels are appended to the
      notifications, the gate sees each condition in order, and health is only clamped
      (there is no per-tick penalty). */
  function CheckConditions(e: Engine, now: int): (r: Engine)
    ensures r.notifications == e.notifications + G.BadLabels(Conditions(e))
    ensures r.gate == G.CheckAll(e.gate, Conditions(e), now)
    ensures 0 <= e.health <= Full ==> r.health == e.health
    ensures 0 <= r.health <= Full
    ensures r.(notifications := e.notifications, gate := e.gate, health := e.health) == e
  {
    var conds := Conditions(e);
    e.(notifications := e.notifications + G.BadLabels(conds),
       gate := G.CheckAll(e.gate, conds, now),
       health := Clamp(e.health, 0, Full))
  }

  /** The daylight prompt is raised only when the day's light would fall short: with the
      gate open and every other condition fine, it is raised exactly when `LightShort`. */
  lemma DaylightPromptIffShort(e: Engine, now: int)
    requires e.gate.active.None? && now >= e.gate.nextAllowedAt && G.CooledDown(e.gate, "light_on", now)
    requires forall i :: 0 <= i < 8 ==> !Conditions(e)[i].bad
    ensures LightShort(e) ==>
              CheckConditions(e, now).gate.active == Some(G.Prompt("light_on", NotEnoughDaylight(e.data.profile.lightNeed), now + G.PromptTtlMs))
    ensures !LightShort(e) ==> CheckConditions(e, now).gate.active.None?
  {
    if LightShort(e) {
      G.FirstEligibleIsRaised(e.gate, Conditions(e), now, 8);
    }
  }

  /** The clock part of `simulate_tick`: one more tick, two more hours, and at 24 the next
      day starts at hour 0 with no light counted yet. */
  function AdvanceClock(e: Engine): (r: Engine)
    ensures r.tick == e.tick + 1
    ensures e.hour + HoursPerTick >= 24 ==> r.hour == 0 && r.day == e.day + 1 && r.dailyLight == 0
    ensures e.hour + HoursPerTick < 24 ==> r.hour == e.hour + HoursPerTick && r.day == e.day && r.dailyLight == e.dailyLight
    ensures ClockOk(e) ==> ClockOk(r)
    ensures ClockOk(e) && TickAligned(e) ==> TickAligned(r)
    ensures r.(tick := e.tick, hour := e.hour, day := e.day, dailyLight := e.dailyLight) == e
  {
    var hour := e.hour + HoursPerTick;
    if hour >= 24 then e.(tick := e.tick + 1, hour := 0, day := e.day + 1, dailyLight := 0)
    else e.(tick := e.tick + 1, hour := hour)
  }

  /** The tick's inputs arrive: the environment step's readings replace the old ones and the
      notifications start over. */
  function Observe(e: Engine, env: Readings): (r: Engine)
    ensures r.water == env.water && r.ec == env.ec && r.ph == env.ph && r.temp == env.temp && r.humidity == env.humidity
    ensures r.notifications == []
    ensures r.(water := e.water, ec := e.ec, ph := e.ph, temp := e.temp, humidity := e.humidity,
               notifications := e.notifications) == e
  {
    e.(water := env.water, ec := env.ec, ph := env.ph, temp := env.temp, humidity := env.humidity, notifications := [])
  }

  /** One tick of a running crop: readings in, light counted, conditions checked, clock on. */
  function Tick(e: Engine, env: Readings, now: int): (r: Engine)
    ensures r.tick == e.tick + 1 && r.stage == e.stage
    ensures r.notifications == G.BadLabels(Conditions(LightAccounting(Observe(e, env))))
    ensures ClockOk(e) ==> ClockOk(r)
    ensures ClockOk(e) && TickAligned(e) ==> TickAligned(r)
    ensures e.gate.active.Some? ==> r.gate.active == e.gate.active
    ensures 0 <= e.health <= Full ==> r.health == e.health
    ensures r.tempOffset == e.tempOffset && r.data == e.data
  {
    AdvanceClock(CheckConditions(LightAccounting(Observe(e, env)), now))
  }

  /** The engine with its stage label replaced; the clock, gate, health and data stay. */
  function WithStage(e: Engine, stage: string): (r: Engine)
    ensures r.stage == stage && r.tick == e.tick && r.day == e.day && r.hour == e.hour
    ensures r.gate == e.gate && r.health == e.health && r.tempOffset == e.tempOffset && r.data == e.data
    ensures r == e.(stage := stage)
  {
    e.(stage := stage)
  }

  /** `simulate_tick`. An empty uptake table makes `_last_stage_end` raise (none). On or after
      the last stage's end day only the stage changes, to "Harvestable". Otherwise the stage
      follows the day and one `Tick` runs. */
  function SimulateTick(e: Engine, env: Readings, now: int): (r: Option<Engine>)
    ensures r.None? <==> e.data.stages == []
    ensures r.Some? && e.day >= LastStageEnd(e.data.stages).value ==> r.value == e.(stage := Harvestable)
    ensures r.Some? && e.day < LastStageEnd(e.data.stages).value ==>
              && r.value.stage == GetStage(e.data.stages, e.day)
              && r.value.tick == e.tick + 1
    ensures r.Some? && ClockOk(e) ==> ClockOk(r.value)
    ensures r.Some? && ClockOk(e) && TickAligned(e) ==> TickAligned(r.value)
    ensures r.Some? && e.gate.active.Some? ==> r.value.gate.active == e.gate.active
    ensures r.Some? && 0 <= e.health <= Full ==> r.value.health == e.health
    ensures r.Some? ==> r.value.tempOffset == e.tempOffset && r.value.data == e.data
  {
    match LastStageEnd(e.data.stages)
    case None => None
    case Some(end) =>
      if e.day >= end then Some(WithStage(e, Harvestable))
      else Some(Tick(WithStage(e, GetStage(e.data.stages, e.day)), env, now))
  }

  /** The inputs of one tick: the environment's readings and the wall-clock time. */
  datatype TickInput = TickInput(env: Readings, now: int)

  /** The worker loop's guard: it runs while the engine is running, not harvested and alive. */
  predicate LoopRuns(e: Engine) {
    e.running && e.stage != Harvestable && e.health > 0
  }

  /** The worker loop, one iteration per input. Once the guard fails the loop has ended and
      nothing changes; a paused iteration only sleeps; a tick that raises leaves one
      "Simulation error" line and the loop goes on. */
  function RunTicks(e: Engine, ins: seq<TickInput>): (r: Engine)
    ensures !LoopRuns(e) || e.paused ==> r == e
    ensures r.data == e.data && r.paused == e.paused && r.running == e.running
    ensures r.city == e.city && r.month == e.month && r.crop == e.crop
    decreases |ins|
  {
    if ins == [] || !LoopRuns(e) || e.paused then e
    else
      match SimulateTick(e, ins[0].env, ins[0].now)
      case None => RunTicks(e.(feedback := e.feedback + [SimulationError]), ins[1..])
      case Some(e1) => RunTicks(e1, ins[1..])
  }

  /** A tick that cannot run (no stage table) leaves the engine as it was plus one
      "Simulation error" line per iteration. */
  lemma {:induction false} RaisingTicksOnlyReport(e: Engine, ins: seq<TickInput>)
    requires e.data.stages == [] && LoopRuns(e) && !e.paused
    ensures RunTicks(e, ins) == e.(feedback := e.feedback + seq(|ins|, _ => SimulationError))
    decreases |ins|
  {
    if ins != [] {
      var e1 := e.(feedback := e.feedback + [SimulationError]);
      RaisingTicksOnlyReport(e1, ins[1..]);
      assert e1.feedback + seq(|ins| - 1, _ => SimulationError) == e.feedback + seq(|ins|, _ => SimulationError);
    } else {
      assert e.feedback + seq(0, _ => SimulationError) == e.feedback;
    }
  }

  /** Over any run of the loop the hour stays even and within the day, health is untouched
      (penalties come only from missed prompts) and an active prompt is never replaced. */
  lemma {:induction false} TicksKeepClock(e: Engine, ins: seq<TickInput>)
    requires ClockOk(e) && 0 <= e.health <= Full
    ensures var r := RunTicks(e, ins);
            ClockOk(r) && r.health == e.health
    ensures e.gate.active.Some? ==> RunTicks(e, ins).gate.active == e.gate.active
    decreases |ins|
  {
    if ins != [] && LoopRuns(e) && !e.paused {
      match SimulateTick(e, ins[0].env, ins[0].now)
      case None => TicksKeepClock(e.(feedback := e.feedback + [SimulationError]), ins[1..]);
      case Some(e1) => TicksKeepClock(e1, ins[1..]);
    }
  }

  /** A stage advance followed by any run of the loop: the clock stays valid and health
      untouched, although the advance has put the tick counter out of step. */
  lemma AdvanceThenTicksKeepClock(e: Engine, now: int, ins: seq<TickInput>)
    requires e.data.stages != [] && 0 <= e.health <= Full
    ensures var a := Advance(e, now).value;
            ClockOk(RunTicks(a, ins)) && RunTicks(a, ins).health == e.health
  {
    TicksKeepClock(Advance(e, now).value, ins);
  }

  /** Ticks keep the tick counter in step with the clock for an engine that is in step; a
      stage advance breaks this (see `Advance`), and the loop keeps ticking such engines. */
  lemma {:induction false} TicksKeepAlignment(e: Engine, ins: seq<TickInput>)
    requires ClockOk(e) && TickAligned(e)
    ensures TickAligned(RunTicks(e, ins))
    decreases |ins|
  {
    if ins != [] && LoopRuns(e) && !e.paused {
      match SimulateTick(e, ins[0].env, ins[0].now)
      case None => TicksKeepAlignment(e.(feedback := e.feedback + [SimulationError]), ins[1..]);
      case Some(e1) => TicksKeepAlignment(e1, ins[1..]);
    }
  }

  // ---------------------- Stage advance ----------------------

  /** `reset_to_stage_ideals`: EC and pH to the middle of their ranges, a full tank, the
      prompt resolved as acted on, and the notifications emptied. */
  function ResetStageIdeals(e: Engine, now: int): (r: Engine)
    ensures r.ec == Midpoint(e.data.profile.ec) && r.ph == Midpoint(e.data.profile.ph) && r.water == Full
    ensures r.gate == G.Resolve(e.gate, true, now) && r.notifications == []
    ensures r.feedback == e.feedback + (if G.HandledInTime(e.gate, true) then [HandledInTime] else []) + [ResetToIdeals(e.stage)]
    ensures r.(ec := e.ec, ph := e.ph, water := e.water, gate := e.gate, notifications := e.notifications, feedback := e.feedback) == e
  {
    var resolved := ResolvePrompt(e, true, now);
    resolved.(ec := Midpoint(e.data.profile.ec), ph := Midpoint(e.data.profile.ph), water := Full,
              notifications := [], feedback := resolved.feedback + [ResetToIdeals(e.stage)])
  }

  /** `advance_to_next_stage`: from the stage the day falls in (not the stored one), move to
      the next table entry (the same one at the end, the first one from "Harvestable"), jump
      the day to its start, set hour 0 and tick `day * 24`, reset to ideals and report the move.
      An empty table makes the source raise (none). */
  function Advance(e: Engine, now: int): (r: Option<Engine>)
    ensures r.None? <==> e.data.stages == []
    ensures r.Some? ==>
              var n := NextStage(e.data.stages, GetStage(e.data.stages, e.day)).value;
              && n in e.data.stages
              && r.value.stage == n.name && r.value.day == n.first
              && r.value.hour == 0 && r.value.tick == 24 * r.value.day
              && r.value.gate.active.None? && r.value.water == Full
              && r.value.health == e.health && r.value.notifications == []
              && r.value.feedback != []
              && r.value.feedback[|r.value.feedback| - 1] == Advanced(GetStage(e.data.stages, e.day), n.name)
    ensures r.Some? ==> ClockOk(r.value)
  {
    var current := GetStage(e.data.stages, e.day);
    match NextStage(e.data.stages, current)
    case None => None
    case Some(n) =>
      var moved := e.(day := n.first, stage := n.name, tick := n.first * 24, hour := 0);
      var reset := ResetStageIdeals(moved, now);
      Some(reset.(feedback := reset.feedback + [Advanced(current, n.name)]))
  }

  /** Advancing never moves past the table's last stage: from the last stage it stays there. */
  lemma AdvanceStaysAtLast(e: Engine, now: int)
    requires e.data.stages != []
    requires IndexOf(Names(e.data.stages), GetStage(e.data.stages, e.day)) == |e.data.stages| - 1
    ensures Advance(e, now).value.stage == e.data.stages[|e.data.stages| - 1].name
  {
  }

  /** After the last stage's end the day falls in no range, so an advance starts the table
      over at its first stage (when no stage is itself called "Harvestable"). */
  lemma AdvanceAfterHarvestRestartsTable(e: Engine, now: int)
    requires e.data.stages != []
    requires e.day > LastStageEnd(e.data.stages).value
    requires Harvestable !in Names(e.data.stages)
    ensures Advance(e, now).value.stage == e.data.stages[0].name
    ensures Advance(e, now).value.day == e.data.stages[0].first
  {
    PastLastEndIsHarvestable(e.data.stages, e.day);
  }

  // ---------------------- Yield and run flags ----------------------

  /** Health as a fraction of full health (health is in percent in the source). */
  function HealthFraction(health: int): (f: real)
    ensures 0 <= health <= Full ==> 0.0 <= f <= 1.0
  {
    (health as real) * 0.0001
  }

  /** `calculate_yield`'s `yield_kg`: the yield per plant scaled by health. */
  function CalculateYield(e: Engine): (r: real)
    ensures e.health == Full ==> r == e.data.yieldPerPlant
    ensures e.health == 0 ==> r == 0.0
  {
    e.data.yieldPerPlant * HealthFraction(e.health)
  }

  /** `a * x <= a * y` for a non-negative factor. */
  lemma ScaleMonotone(a: real, x: real, y: real)
    requires a >= 0.0 && x <= y
    ensures a * x <= a * y
  {
    assert a * y - a * x == a * (y - x);
  }

  /** With health in [0, 100] the yield lies between nothing and the full per-plant yield. */
  lemma YieldBounds(e: Engine)
    requires 0 <= e.health <= Full && e.data.yieldPerPlant >= 0.0
    ensures 0.0 <= CalculateYield(e) <= e.data.yieldPerPlant
  {
    var a, f := e.data.yieldPerPlant, HealthFraction(e.health);
    assert CalculateYield(e) == a * f;
    ScaleMonotone(a, 0.0, f);
    ScaleMonotone(a, f, 1.0);
    assert a * 0.0 == 0.0 && a * 1.0 == a;
  }

  /** Of two engines for the same crop data, the healthier one never yields less. */
  lemma YieldMonotone(e1: Engine, e2: Engine)
    requires e1.data == e2.data && e1.data.yieldPerPlant >= 0.0 && e1.health <= e2.health
    ensures CalculateYield(e1) <= CalculateYield(e2)
  {
    var a, f1, f2 := e1.data.yieldPerPlant, HealthFraction(e1.health), HealthFraction(e2.health);
    var d := f2 - f1;
    assert d >= 0.0;
    assert a * d >= 0.0;
    assert CalculateYield(e2) - CalculateYield(e1) == a * d;
  }

  /** `pause_simulation` / `resume_simulation`: only the paused flag changes. */
  function SetPaused(e: Engine, paused: bool): (r: Engine)
    ensures r.paused == paused && r.(paused := e.paused) == e
  {
    e.(paused := paused)
  }

  /** `start_simulation` (already running is a no-op) and `stop_simulation`: only the
      running flag changes; the worker thread itself is not modelled. */
  function SetRunning(e: Engine, running: bool): (r: Engine)
    ensures r.running == running && r.(running := e.running) == e
  {
    e.(running := running)
  }
}

=== FILE: engine_snapshot.dfy ===
/** The engine's browser-storable snapshot (`snapshot` / `from_snapshot`): the readings and the
    clock travel; the prompt gate, the tick counter and the streams do not. */
module EngineSnapshot {
  import opened Common
  import opened Educator
  import G = PromptGate

  /** A snapshot as a JSON object: every field may be absent. */
  datatype Snap = Snap(
    city: Option<string>, month: Option<string>, crop: Option<string>,
    day: Option<int>, hour: Option<int>, stage: Option<string>, lightOn: Option<bool>,
    water: Option<int>, ec: Option<int>, ph: Option<int>, health: Option<int>,
    dailyLight: Option<int>, temp: Option<int>, humidity: Option<int>, tempOffset: Option<int>,
    paused: Option<bool>)

  /** `snapshot`: every field present, and always marked paused. */
  function TakeSnapshot(e: Engine): (r: Snap)
    ensures r.city == Some(e.city) && r.month == Some(e.month) && r.crop == Some(e.crop)
    ensures r.paused == Some(true)
    ensures r.day == Some(e.day) && r.hour == Some(e.hour) && r.stage == Some(e.stage) && r.health == Some(e.health)
    ensures r.lightOn == Some(e.lightOn) && r.water == Some(e.water) && r.ec == Some(e.ec) && r.ph == Some(e.ph)
    ensures r.dailyLight == Some(e.dailyLight) && r.temp == Some(e.temp)
    ensures r.humidity == Some(e.humidity) && r.tempOffset == Some(e.tempOffset)
  {
    Snap(Some(e.city), Some(e.month), Some(e.crop),
         Some(e.day), Some(e.hour), Some(e.stage), Some(e.lightOn),
         Some(e.water), Some(e.ec), Some(e.ph), Some(e.health),
         Some(e.dailyLight), Some(e.temp), Some(e.humidity), Some(e.tempOffset),
         Some(true))
  }

  /** `from_snapshot`: a fresh engine for the snapshot's city, month and crop (none when one is
      missing or unknown, where Python raises), with each snapshotted field copied or, when
      absent, given the constructor's default; the result is paused and not running whatever
      the snapshot says. */
  function FromSnapshot(s: Snap, c: Catalog): (r: Option<Engine>)
    ensures r.Some? <==> s.city.Some? && s.month.Some? && s.crop.Some? && Known(c, s.city.value, s.month.value, s.crop.value)
    ensures r.Some? ==> r.value.paused && !r.value.running
    ensures r.Some? ==> r.value.gate == G.Initial && r.value.tick == 0 && r.value.feedback == []
    ensures r.Some? ==>
              && r.value.day == s.day.GetOr(0) && r.value.hour == s.hour.GetOr(0)
              && r.value.stage == s.stage.GetOr("Seedling") && r.value.health == s.health.GetOr(Full)
              && r.value.ec == s.ec.GetOr(r.value.data.profile.ec.hi)
              && r.value.humidity == s.humidity.GetOr(r.value.climate.humidity)
    ensures r.Some? ==>
              && r.value.lightOn == s.lightOn.GetOr(false) && r.value.water == s.water.GetOr(Full)
              && r.value.ph == s.ph.GetOr(r.value.data.profile.ph.hi)
              && r.value.dailyLight == s.dailyLight.GetOr(0)
              && r.value.temp == s.temp.GetOr(r.value.climate.meanTemp)
              && r.value.tempOffset == s.tempOffset.GetOr(0)
  {
    if s.city.None? || s.month.None? || s.crop.None? then None
    else
      match NewEngine(c, s.city.value, s.month.value, s.crop.value)
      case None => None
      case Some(e) =>
        Some(e.(day := s.day.GetOr(0), hour := s.hour.GetOr(0), stage := s.stage.GetOr("Seedling"),
                lightOn := s.lightOn.GetOr(false), water := s.water.GetOr(Full),
                ec := s.ec.GetOr(e.data.profile.ec.hi), ph := s.ph.GetOr(e.data.profile.ph.hi),
                health := s.health.GetOr(Full), dailyLight := s.dailyLight.GetOr(0),
                temp := s.temp.GetOr(e.climate.meanTemp), humidity := s.humidity.GetOr(e.climate.humidity),
                tempOffset := s.tempOffset.GetOr(0), paused := true, running := false))
  }

  /** The catalog still holds the engine's data under its city, month and crop. */
  predicate CatalogAgrees(c: Catalog, e: Engine) {
    Known(c, e.city, e.month, e.crop) && c.crops[e.crop] == e.data && c.climates[e.city][e.month] == e.climate
  }

  /** Restoring a snapshot gives back an engine with every snapshotted field equal, paused and
      not running; taking its snapshot again gives the same snapshot. */
  lemma SnapshotRoundTrip(e: Engine, c: Catalog)
    requires CatalogAgrees(c, e)
    ensures var r := FromSnapshot(TakeSnapshot(e), c);
            && r.Some? && r.value.paused && !r.value.running
            && TakeSnapshot(r.value) == TakeSnapshot(e)
            && r.value.data == e.data && r.value.climate == e.climate
            && r.value.day == e.day && r.value.hour == e.hour && r.value.stage == e.stage
            && r.value.lightOn == e.lightOn && r.value.dailyLight == e.dailyLight
            && r.value.water == e.water && r.value.ec == e.ec && r.value.ph == e.ph
            && r.value.health == e.health && r.value.temp == e.temp
            && r.value.humidity == e.humidity && r.value.tempOffset == e.tempOffset
  {
  }

  /** A snapshot that carries only the city, month and crop restores the constructor's engine,
      paused. */
  lemma BareSnapshotIsNewEngine(c: Catalog, city: string, month: string, crop: string)
    requires Known(c, city, month, crop)
    ensures var s := Snap(Some(city), Some(month), Some(crop), None, None, None, None, None, None, None, None, None, None, None, None, None);
            FromSnapshot(s, c) == Some(NewEngine(c, city, month, crop).value.(paused := true))
  {
  }
}

=== FILE: engine_text.dfy ===
/** The engine's user-facing texts, kept as data: the prompt labels and the feedback lines.
    Numbers inside them are the readings they report (hundredths), not formatted strings. */
module EngineText {

  /** The label of a condition prompt / notification. */
  datatype Label =
    | WaterLow
    | EcLow
    | EcHigh
    | PhDrifting
    | TooDry(humidity: int)
    | TooHumid(humidity: int)
    | TempLow(temp: int)
    | TempHigh(temp: int)
    | NotEnoughDaylight(hours: int)

  /** A line appended to the engine's feedback stream. */
  datatype Note =
    | HandledInTime
    | Missed(missedLabel: Label, penalty: int)
    | LightTurned(on: bool)
    | WaterRefilled
    | EcNormalized(ecBefore: int, ecAfter: int)
    | PhNormalized(phBefore: int, phAfter: int)
    | HumiditySprayed
    | Dehumidified
    | CooledDown
    | HeatedUp
    | DailyLightMet
    | ResetToIdeals(idealStage: string)
    | Advanced(fromStage: string, toStage: string)
    | AdvanceFallback
    | SimulationError
}

=== FILE: feedback.dfy ===
/** The client's time-stamped feedback queue: items are added with a time-to-live and
    garbage-collected by time, never by a server instruction. */
module Feedback {

  /** Default lifetime of a feedback line (`FEEDBACK_TTL_MS`). */
  const FeedbackTtlMs: int := 8000

  datatype Item = Item(text: string, expiresAt: int)

  predicate Live(x: Item, now: int) {
    x.expiresAt > now
  }

  /** `pruneAndRenderFeedback`: keep, in order, the items that have not expired. */
  function Prune(q: seq<Item>, now: int): (r: seq<Item>)
    ensures |r| <= |q|
    ensures forall i :: 0 <= i < |r| ==> Live(r[i], now)
    ensures forall x :: x in r <==> x in q && Live(x, now)
    decreases |q|
  {
    if q == [] then []
    else (if Live(q[0], now) then [q[0]] else []) + Prune(q[1..], now)
  }

  /** Pruning keeps every live item as many times as it was queued and drops the rest. */
  lemma {:induction false} PruneCounts(q: seq<Item>, now: int, x: Item)
    ensures multiset(Prune(q, now))[x] == if Live(x, now) then multiset(q)[x] else 0
    decreases |q|
  {
    if q != [] {
      assert q == [q[0]] + q[1..];
      PruneCounts(q[1..], now, x);
    }
  }

  /** Pruning splits over concatenation, so it keeps the queue's order. */
  lemma {:induction false} PruneAppend(a: seq<Item>, b: seq<Item>, now: int)
    ensures Prune(a + b, now) == Prune(a, now) + Prune(b, now)
    decreases |a|
  {
    if a == [] {
      assert a + b == b;
    } else {
      assert (a + b)[0] == a[0];
      assert (a + b)[1..] == a[1..] + b;
      PruneAppend(a[1..], b, now);
    }
  }

  /** Pruning twice at the same instant prunes nothing more. */
  lemma {:induction false} PruneIdempotent(q: seq<Item>, now: int)
    ensures Prune(Prune(q, now), now) == Prune(q, now)
    decreases |q|
  {
    if q != [] {
      var rest := Prune(q[1..], now);
      PruneIdempotent(q[1..], now);
      if Live(q[0], now) {
        var p := [q[0]] + rest;
        assert Prune(q, now) == p;
        assert p[0] == q[0] && p[1..] == rest;
        assert Prune(p, now) == [q[0]] + Prune(rest, now);
      } else {
        assert Prune(q, now) == [] + rest == rest;
      }
    }
  }

  /** `addFeedback`: an empty text is ignored; otherwise the item is appended with
      deadline `now + ttl` and the queue is pruned. */
  function Add(q: seq<Item>, text: string, now: int, ttl: int): (r: seq<Item>)
    ensures text == "" ==> r == q
    ensures text != "" && ttl > 0 ==>
              |r| > 0 && r[|r| - 1] == Item(text, now + ttl) && r[..|r| - 1] == Prune(q, now)
    ensures text != "" ==> forall i :: 0 <= i < |r| ==> Live(r[i], now)
  {
    if text == "" then q
    else
      PruneAppend(q, [Item(text, now + ttl)], now);
      Prune(q + [Item(text, now + ttl)], now)
  }

  /** Adding to an empty queue yields exactly the new item. */
  lemma AddToEmpty(text: string, now: int, ttl: int)
    requires text != "" && ttl > 0
    ensures Add([], text, now, ttl) == [Item(text, now + ttl)]
  {
    assert Prune([Item(text, now + ttl)], now) == [Item(text, now + ttl)] + Prune([], now);
  }
}

=== FILE: prompt_gate.dfy ===
/** The engine's single-prompt gate: at most one active prompt, a global gap after each
    resolution or miss, a per-key cooldown between raises, and penalties staged at raise
    time and applied only when the prompt is missed. Times are integer milliseconds and
    health and penalties are hundredths of a health point. */
module PromptGate {
  import opened Common
  import opened EngineText

  /** How long the user has to act on a prompt (`prompt_ttl_ms`). */
  const PromptTtlMs: int := 15000
  /** Gap after a resolution or miss before the next prompt (`min_prompt_gap_sec` * 1000). */
  const MinPromptGapMs: int := 5000
  /** Minimum time between two raises of the same key (`prompt_cooldown_ms`). */
  const PromptCooldownMs: int := 8000
  /** Penalty for a key missing from the table (`default_penalty` = 0.5). */
  const DefaultPenalty: int := 50
  const MaxHealth: int := 10000

  /** The keys `penalty_table` lists; every other key costs `default_penalty`. */
  const PenaltyKeys: set<string> := {"water_low", "ec_low", "ec_high", "ph_out", "humidity_low",
                                     "humidity_high", "temp_low", "temp_high", "light_on"}

  /** `penalty_table`, in hundredths of a health point. */
  function PenaltyFor(key: string): (r: int)
    ensures r > 0
    ensures key == "water_low" ==> r == 100
    ensures key == "ec_low" || key == "ec_high" || key == "ph_out" ==> r == 60
    ensures key in {"humidity_low", "humidity_high", "temp_low", "temp_high"} ==> r == 50
    ensures key == "light_on" ==> r == 20
    ensures key !in PenaltyKeys ==> r == DefaultPenalty
  {
    if key == "water_low" then 100
    else if key == "ec_low" || key == "ec_high" || key == "ph_out" then 60
    else if key == "humidity_low" || key == "humidity_high" || key == "temp_low" || key == "temp_high" then 50
    else if key == "light_on" then 20
    else DefaultPenalty
  }

  datatype Prompt = Prompt(key: string, title: Label, expiresAt: int)

  /** `active_prompt`, `_next_prompt_allowed_at`, `_prompt_last` and `_pending_penalties`. */
  datatype Gate = Gate(active: Option<Prompt>, nextAllowedAt: int, lastRaised: map<string, int>, pending: map<string, int>)

  const Initial: Gate := Gate(None, 0, map[], map[])

  /** Every staged penalty is positive, as every table entry is. */
  predicate PenaltiesPositive(g: Gate) {
    forall k :: k in g.pending ==> g.pending[k] > 0
  }

  /** The last raise time of `key`, 0 when never raised (`_prompt_last.get(key, 0)`). */
  function LastRaised(g: Gate, key: string): int {
    if key in g.lastRaised then g.lastRaised[key] else 0
  }

  /** The per-key cooldown has elapsed; a recorded time of 0 counts as "never". */
  predicate CooledDown(g: Gate, key: string, now: int) {
    var last := LastRaised(g, key);
    !(last != 0 && now - last < PromptCooldownMs)
  }

  /** All three gate conditions of `_maybe_raise_prompt`. */
  predicate CanRaise(g: Gate, key: string, now: int) {
    g.active.None? && now >= g.nextAllowedAt && CooledDown(g, key, now)
  }

  /** `_maybe_raise_prompt`: when the gate is open the prompt becomes active with expiry
      `now + ttl`, its raise time is recorded and a penalty is staged unless one already is;
      otherwise nothing changes. */
  function MaybeRaise(g: Gate, key: string, title: Label, duration: Option<int>, now: int): (r: Gate)
    ensures !CanRaise(g, key, now) ==> r == g
    ensures CanRaise(g, key, now) ==>
              && r.active == Some(Prompt(key, title, now + duration.GetOr(PromptTtlMs)))
              && r.lastRaised == g.lastRaised[key := now]
              && r.nextAllowedAt == g.nextAllowedAt
    ensures key in g.pending ==> r.pending == g.pending
    ensures key !in g.pending && CanRaise(g, key, now) ==> r.pending == g.pending[key := PenaltyFor(key)]
    ensures g.active.Some? ==> r == g
    ensures PenaltiesPositive(g) ==> PenaltiesPositive(r)
  {
    if !CanRaise(g, key, now) then g
    else
      var ttl := duration.GetOr(PromptTtlMs);
      var staged := if key in g.pending then g.pending else g.pending[key := PenaltyFor(key)];
      g.(active := Some(Prompt(key, title, now + ttl)), lastRaised := g.lastRaised[key := now], pending := staged)
  }

  /** `resolve_prompt` acknowledges the user in time when it acted on a staged prompt. */
  predicate HandledInTime(g: Gate, acted: bool) {
    acted && g.active.Some? && g.active.value.key in g.pending
  }

  /** `resolve_prompt`: the active prompt is always cleared and the gap restarts at `now`;
      when the user acted, the active key's staged penalty is dropped. */
  function Resolve(g: Gate, acted: bool, now: int): (r: Gate)
    ensures r.active.None? && r.nextAllowedAt == now + MinPromptGapMs
    ensures r.lastRaised == g.lastRaised
    ensures acted && g.active.Some? ==> r.pending == g.pending - {g.active.value.key}
    ensures !(acted && g.active.Some?) ==> r.pending == g.pending
    ensures PenaltiesPositive(g) ==> PenaltiesPositive(r)
  {
    var pending := if acted && g.active.Some? then g.pending - {g.active.value.key} else g.pending;
    g.(active := None, nextAllowedAt := now + MinPromptGapMs, pending := pending)
  }

  /** The penalty a miss of `key` costs: the staged one, else the table's. */
  function MissPenalty(g: Gate, key: string): int {
    if key in g.pending then g.pending[key] else PenaltyFor(key)
  }

  datatype MissOutcome = MissOutcome(gate: Gate, health: int, note: Option<Note>)

  /** `prompt_missed`: a no-op without an active prompt. Otherwise the staged penalty is
      consumed and subtracted from health (clamped to [0, 100.00]), the prompt is cleared,
      the gap restarts and a "Missed" note records the label and penalty. */
  function Miss(g: Gate, health: int, now: int): (r: MissOutcome)
    ensures g.active.None? ==> r == MissOutcome(g, health, None)
    ensures g.active.Some? ==>
              var key := g.active.value.key;
              && r.gate.active.None? && r.gate.nextAllowedAt == now + MinPromptGapMs
              && r.gate.pending == g.pending - {key} && r.gate.lastRaised == g.lastRaised
              && r.health == Clamp(health - MissPenalty(g, key), 0, MaxHealth)
              && r.note == Some(Missed(g.active.value.title, MissPenalty(g, key)))
    ensures g.active.Some? ==> 0 <= r.health <= MaxHealth
    ensures PenaltiesPositive(g) && 0 <= health <= MaxHealth ==> r.health <= health
    ensures PenaltiesPositive(g) ==> PenaltiesPositive(r.gate)
  {
    match g.active
    case None => MissOutcome(g, health, None)
    case Some(p) =>
      var penalty := MissPenalty(g, p.key);
      MissOutcome(g.(active := None, nextAllowedAt := now + MinPromptGapMs, pending := g.pending - {p.key}),
                  Clamp(health - penalty, 0, MaxHealth),
                  Some(Missed(p.title, penalty)))
  }

  /** `_clear_prompt_cooldown_if_ok`: an OK condition forgets its key's last raise time. */
  function ClearCooldownIfOk(g: Gate, key: string, ok: bool): (r: Gate)
    ensures ok ==> key !in r.lastRaised && r.lastRaised == g.lastRaised - {key}
    ensures !ok ==> r == g
    ensures r.active == g.active && r.pending == g.pending && r.nextAllowedAt == g.nextAllowedAt
  {
    if ok && key in g.lastRaised then g.(lastRaised := g.lastRaised - {key}) else g
  }

  /** After an OK reading clears its cooldown, the key may be raised again at once. */
  lemma OkConditionLiftsCooldown(g: Gate, key: string, now: int)
    requires g.active.None? && now >= g.nextAllowedAt
    ensures CanRaise(ClearCooldownIfOk(g, key, true), key, now)
  {
  }

  /** A prompt raised at `t` (a non-zero time) cannot be raised again before `t + 8000`, even
      after it was resolved or missed, unless its condition was seen OK in between. */
  lemma CooldownBlocksReraise(g: Gate, key: string, title: Label, t: int, acted: bool, t2: int, now: int)
    requires CanRaise(g, key, t) && t != 0
    requires now - t < PromptCooldownMs
    ensures var raised := MaybeRaise(g, key, title, None, t);
            var resolved := Resolve(raised, acted, t2);
            var missed := Miss(raised, 0, t2).gate;
            && MaybeRaise(resolved, key, title, None, now) == resolved
            && MaybeRaise(missed, key, title, None, now) == missed
  {
    var raised := MaybeRaise(g, key, title, None, t);
    assert LastRaised(Resolve(raised, acted, t2), key) == t;
    assert LastRaised(Miss(raised, 0, t2).gate, key) == t;
  }

  /** After a resolution or a miss at `t`, nothing can be raised before `t + 5000`. */
  lemma GapAfterRelease(g: Gate, acted: bool, health: int, t: int, key: string, title: Label, now: int)
    requires now < t + MinPromptGapMs
    ensures var r := Resolve(g, acted, t);
            MaybeRaise(r, key, title, None, now) == r
    ensures g.active.Some? ==>
              var m := Miss(g, health, t).gate;
              MaybeRaise(m, key, title, None, now) == m
  {
  }

  /** A penalty staged at the first raise is the one a later miss charges, and acting in
      time cancels it: the miss then costs only the table's value again. */
  lemma StagedPenaltyIsCharged(g: Gate, key: string, title: Label, health: int, t: int, t2: int)
    requires CanRaise(g, key, t) && key !in g.pending
    requires 0 <= health <= MaxHealth
    ensures var raised := MaybeRaise(g, key, title, None, t);
            Miss(raised, health, t2).health == Max(0, health - PenaltyFor(key))
    ensures var raised := MaybeRaise(g, key, title, None, t);
            key !in Resolve(raised, true, t2).pending
  {
  }

  /** A condition evaluated on one tick: its prompt key, whether it is bad, and its label. */
  datatype Condition = Condition(key: string, bad: bool, title: Label)

  /** The prompt part of `_check_conditions_with_prompts`: each bad condition tries to raise
      its prompt, and each condition that is OK clears its key's cooldown, in order. */
  function CheckAll(g: Gate, conds: seq<Condition>, now: int): (r: Gate)
    ensures g.active.Some? ==> r.active == g.active
    ensures r.nextAllowedAt == g.nextAllowedAt
    ensures r.active != g.active ==>
              exists i :: 0 <= i < |conds| && conds[i].bad &&
                          r.active == Some(Prompt(conds[i].key, conds[i].title, now + PromptTtlMs))
    ensures (forall i :: 0 <= i < |conds| ==> !conds[i].bad) ==> r.active == g.active
    ensures PenaltiesPositive(g) ==> PenaltiesPositive(r)
    decreases |conds|
  {
    if conds == [] then g
    else
      var c := conds[0];
      var raised := if c.bad then MaybeRaise(g, c.key, c.title, None, now) else g;
      var next := ClearCooldownIfOk(raised, c.key, !c.bad);
      var r := CheckAll(next, conds[1..], now);
      assert r.active != next.active ==>
               exists i :: 1 <= i < |conds| && conds[i].bad &&
                           r.active == Some(Prompt(conds[i].key, conds[i].title, now + PromptTtlMs)) by {
        if r.active != next.active {
          var j :| 0 <= j < |conds[1..]| && conds[1..][j].bad &&
                   r.active == Some(Prompt(conds[1..][j].key, conds[1..][j].title, now + PromptTtlMs));
          assert conds[j + 1] == conds[1..][j];
        }
      }
      r
  }

  /** With the gate open and no prompt active, the first bad condition whose cooldown has
      elapsed is the one raised: earlier bad conditions still in cooldown are passed over.
      Keys are distinct, as in the tick's condition list, so clearing one key's cooldown
      leaves every other key's as it was. */
  lemma {:induction false} FirstEligibleIsRaised(g: Gate, conds: seq<Condition>, now: int, k: nat)
    requires g.active.None? && now >= g.nextAllowedAt
    requires k < |conds| && conds[k].bad && CooledDown(g, conds[k].key, now)
    requires forall j :: 0 <= j < k && conds[j].bad ==> !CooledDown(g, conds[j].key, now)
    requires forall i, j :: 0 <= i < j < |conds| ==> conds[i].key != conds[j].key
    ensures CheckAll(g, conds, now).active == Some(Prompt(conds[k].key, conds[k].title, now + PromptTtlMs))
    decreases k
  {
    var c := conds[0];
    if k == 0 {
      var raised := MaybeRaise(g, c.key, c.title, None, now);
      assert raised.active == Some(Prompt(c.key, c.title, now + PromptTtlMs));
    } else {
      var raised := if c.bad then MaybeRaise(g, c.key, c.title, None, now) else g;
      assert raised == g;
      var next := ClearCooldownIfOk(raised, c.key, !c.bad);
      var rest := conds[1..];
      assert next.active.None? && now >= next.nextAllowedAt;
      forall j | 0 <= j < |rest|
        ensures LastRaised(next, rest[j].key) == LastRaised(g, rest[j].key)
      {
        assert rest[j] == conds[j + 1];
        assert conds[0].key != conds[j + 1].key;
      }
      assert rest[k - 1] == conds[k];
      assert CooledDown(next, rest[k - 1].key, now);
      forall j | 0 <= j < k - 1 && rest[j].bad
        ensures !CooledDown(next, rest[j].key, now)
      {
        assert rest[j] == conds[j + 1];
      }
      forall i, j | 0 <= i < j < |rest|
        ensures rest[i].key != rest[j].key
      {
        assert rest[i] == conds[i + 1] && rest[j] == conds[j + 1];
      }
      FirstEligibleIsRaised(next, rest, now, k - 1);
    }
  }

  /** The labels of the bad conditions, in order: the tick's notifications. */
  function BadLabels(conds: seq<Condition>): (r: seq<Label>)
    ensures |r| <= |conds|
    ensures forall l :: l in r <==> exists i :: 0 <= i < |conds| && conds[i].bad && conds[i].title == l
    decreases |conds|
  {
    if conds == [] then []
    else
      var rest := BadLabels(conds[1..]);
      assert forall l :: l in rest <==> exists i :: 1 <= i < |conds| && conds[i].bad && conds[i].title == l by {
        forall l ensures l in rest <==> exists i :: 1 <= i < |conds| && conds[i].bad && conds[i].title == l {
          if l in rest {
            var j :| 0 <= j < |conds[1..]| && conds[1..][j].bad && conds[1..][j].title == l;
            assert conds[j + 1] == conds[1..][j];
          }
          if exists i :: 1 <= i < |conds| && conds[i].bad && conds[i].title == l {
            var i :| 1 <= i < |conds| && conds[i].bad && conds[i].title == l;
            assert conds[1..][i - 1] == conds[i];
          }
        }
      }
      (if conds[0].bad then [conds[0].title] else []) + rest
  }

  /** The notifications keep the conditions' order: the labels of a concatenation are the
      labels of each part, one after the other. */
  lemma {:induction false} BadLabelsAppend(a: seq<Condition>, b: seq<Condition>)
    ensures BadLabels(a + b) == BadLabels(a) + BadLabels(b)
    decreases |a|
  {
    if a != [] {
      assert (a + b)[0] == a[0] && (a + b)[1..] == a[1..] + b;
      BadLabelsAppend(a[1..], b);
    } else {
      assert a + b == b;
    }
  }

  /** One condition contributes its label exactly when it is bad. */
  lemma BadLabelsSingle(c: Condition)
    ensures BadLabels([c]) == if c.bad then [c.title] else []
  {
    assert [c][1..] == [];
  }
}

=== FILE: server.dfy ===
/** The HTTP layer (`app.py`): the session table and the endpoints' effects on it, with each
    request's JSON body and query string as data and the clock and the fresh session id as
    inputs. */
module Server {
  import opened Common
  import opened EngineText
  import opened Educator
  import opened EngineSnapshot
  import opened Stages
  import G = PromptGate

  /** One entry of `SESSIONS`. */
  datatype Session = Session(engine: Engine, language: string, createdAt: int)

  type Sessions = map<string, Session>

  /** The fields of a request's JSON body this server reads; `body == None` is a request
      without a JSON body. A `snapshot` that is not a JSON object reads as absent. */
  datatype Body = Body(sid: Option<string>, actionId: Option<string>,
                       city: Option<string>, month: Option<string>, crop: Option<string>,
                       language: Option<string>, snapshot: Option<Snap>)

  /** A request: the `sid` query parameter and the JSON body. */
  datatype Request = Request(querySid: Option<string>, body: Option<Body>)

  datatype ErrorKind = InvalidSession | MissingActionId | SidAndSnapshotRequired | BadSnapshot

  /** The engine part of `status_payload`. */
  datatype StatusPayload = StatusPayload(
    city: string, month: string, crop: string, language: string,
    day: int, hour: int, health: int, stage: string, yieldKg: real,
    requiredAction: Option<G.Prompt>, feedback: seq<Note>, notifications: seq<Label>)

  /** The text `apply_action` returns. */
  datatype ActionMessage =
    | LightMessage(on: bool)
    | EcMessage
    | PhMessage
    | CooledMessage
    | HeatedMessage
    | RefilledMessage
    | DehumidifiedMessage
    | HumidifiedMessage
    | AdvancedMessage(fromStage: string, toStage: string)
    | AdvanceFallbackMessage
    | ReceivedMessage

  datatype Reply =
    | SessionCreated(sid: string)
    | StatusReply(payload: StatusPayload)
    | ActionReply(message: ActionMessage)
    | Ack
    | PauseReply(snapshot: Snap)
    | BadRequest(error: ErrorKind)
    | InternalError

  /** What an endpoint leaves behind: the session table and the reply. */
  datatype Served = Served(sessions: Sessions, reply: Reply)

  /** The body's string field, `None` without a body. */
  function BodySid(req: Request): Option<string> {
    if req.body.Some? then req.body.value.sid else None
  }

  /** `request.args.get("sid") or (request.json and request.json.get("sid"))`. */
  function RequestSid(req: Request): (r: Option<string>)
    ensures Truthy(req.querySid) ==> r == req.querySid
    ensures !Truthy(req.querySid) ==> r == BodySid(req)
  {
    if Truthy(req.querySid) then req.querySid else BodySid(req)
  }

  /** `get_session_or_400`: the session under the request's sid; none (a 400) when the sid is
      missing, empty or unknown. */
  function GetSession(sessions: Sessions, req: Request): (r: Option<(string, Session)>)
    ensures r.Some? <==> Truthy(RequestSid(req)) && RequestSid(req).value in sessions
    ensures r.Some? ==> r.value.0 == RequestSid(req).value && r.value.1 == sessions[r.value.0]
  {
    var sid := RequestSid(req);
    if Truthy(sid) && sid.value in sessions then Some((sid.value, sessions[sid.value])) else None
  }

  /** The error every session-bound endpoint answers a bad sid with. */
  const Invalid: Reply := BadRequest(InvalidSession)

  /** The last five entries of a stream (`xs[-5:]`). */
  function LastFive<T>(xs: seq<T>): (r: seq<T>)
    ensures |r| == Min(5, |xs|)
    ensures r == xs[|xs| - |r|..]
  {
    if |xs| > 5 then xs[|xs| - 5..] else xs
  }

  /** `status_payload`: the session's language and the engine's identity, clock, plant
      readings, yield and active prompt, with the last five feedback lines and notifications. */
  function Payload(s: Session): (r: StatusPayload)
    ensures r.city == s.engine.city && r.month == s.engine.month && r.crop == s.engine.crop
    ensures r.language == s.language
    ensures r.day == s.engine.day && r.hour == s.engine.hour
    ensures r.health == s.engine.health && r.stage == s.engine.stage
    ensures r.yieldKg == CalculateYield(s.engine)
    ensures r.requiredAction == s.engine.gate.active
    ensures |r.feedback| == Min(5, |s.engine.feedback|)
    ensures r.feedback == s.engine.feedback[|s.engine.feedback| - |r.feedback|..]
    ensures |r.notifications| == Min(5, |s.engine.notifications|)
    ensures r.notifications == s.engine.notifications[|s.engine.notifications| - |r.notifications|..]
  {
    var e := s.engine;
    StatusPayload(e.city, e.month, e.crop, s.language, e.day, e.hour, e.health, e.stage,
                  CalculateYield(e), e.gate.active, LastFive(e.feedback), LastFive(e.notifications))
  }

  // ---------------------- Action dispatch ----------------------

  /** `_resolve_if_matches`: the active prompt is resolved as acted on exactly when its key is
      one the action fixes; otherwise the engine is untouched. */
  function ResolveIfMatches(e: Engine, keys: set<string>, now: int): (r: Engine)
    ensures e.gate.active.Some? && e.gate.active.value.key in keys ==>
              r.gate.active.None? && e.gate.active.value.key !in r.gate.pending
    ensures !(e.gate.active.Some? && e.gate.active.value.key in keys) ==> r == e
    ensures r.(gate := e.gate, feedback := e.feedback) == e
  {
    if e.gate.active.Some? && e.gate.active.value.key in keys then ResolvePrompt(e, true, now) else e
  }

  /** The engine method an action id (other than "next_stage") calls; none of them touches
      the prompt gate or health. */
  function Perform(e: Engine, actionId: string): (r: Engine)
    requires actionId in ActionIds - {"next_stage"}
    ensures r.gate == e.gate && r.health == e.health
    ensures actionId == "toggle_light" ==> r.lightOn == !e.lightOn
    ensures actionId == "refill_water" ==> r.water == Full
  {
    if actionId == "toggle_light" then ToggleLight(e, !e.lightOn)
    else if actionId == "normalize_ec" then NormalizeEc(e)
    else if actionId == "normalize_ph" then NormalizePh(e)
    else if actionId == "move_inside" then MoveToShade(e)
    else if actionId == "move_outside" then MoveToSunlight(e)
    else if actionId == "refill_water" then RefillWater(e)
    else if actionId == "dehumidify" then Dehumidify(e)
    else SprayMist(e)
  }

  /** The reply text of an action other than "next_stage". */
  function MessageFor(actionId: string, lightWasOn: bool): ActionMessage
    requires actionId in ActionIds - {"next_stage"}
  {
    if actionId == "toggle_light" then LightMessage(!lightWasOn)
    else if actionId == "normalize_ec" then EcMessage
    else if actionId == "normalize_ph" then PhMessage
    else if actionId == "move_inside" then CooledMessage
    else if actionId == "move_outside" then HeatedMessage
    else if actionId == "refill_water" then RefilledMessage
    else if actionId == "dehumidify" then DehumidifiedMessage
    else HumidifiedMessage
  }

  /** `apply_action`: the engine method for the action, then resolution of the prompt keys the
      action fixes; "next_stage" advances (on failure only a fallback note is added); any
      other action id is acknowledged and changes nothing. */
  function ApplyAction(e: Engine, actionId: string, now: int): (r: (Engine, ActionMessage))
    ensures actionId !in ActionIds ==> r == (e, ReceivedMessage)
    ensures actionId in ActionIds - {"next_stage"} ==>
              (r.0.gate.active.None? && e.gate.active.Some? <==> Fixes(e, actionId))
    ensures actionId in ActionIds - {"next_stage"} && !Fixes(e, actionId) ==> r.0.gate == e.gate
    ensures actionId == "toggle_light" ==> r.0.lightOn == !e.lightOn && r.1 == LightMessage(!e.lightOn)
    ensures actionId == "refill_water" ==> r.0.water == Full
    ensures actionId == "next_stage" && e.data.stages == [] ==>
              r == (e.(feedback := e.feedback + [AdvanceFallback]), AdvanceFallbackMessage)
    ensures actionId == "next_stage" && e.data.stages != [] ==>
              r.0 == Advance(e, now).value && r.0.gate.active.None?
    ensures r.0.health == e.health
  {
    if actionId == "next_stage" then
      match Advance(e, now)
      case Some(a) => (a, AdvancedMessage(GetStage(e.data.stages, e.day), a.stage))
      case None => (e.(feedback := e.feedback + [AdvanceFallback]), AdvanceFallbackMessage)
    else if actionId in ActionIds then
      (ResolveIfMatches(Perform(e, actionId), FixedKeys(actionId, e.lightOn), now), MessageFor(actionId, e.lightOn))
    else (e, ReceivedMessage)
  }

  /** The action fixes the active prompt: its key is one of the action's keys. */
  predicate Fixes(e: Engine, actionId: string) {
    e.gate.active.Some? && e.gate.active.value.key in FixedKeys(actionId, e.lightOn)
  }

  /** The action ids `apply_action` knows. */
  const ActionIds: set<string> := {"toggle_light", "normalize_ec", "normalize_ph", "move_inside", "move_outside",
                                   "refill_water", "dehumidify", "spray_water", "next_stage"}

  /** The prompt keys each action fixes; toggling the light fixes "light_on" only when it turns
      the light on (turning it off names "light_off", which no condition raises). */
  function FixedKeys(actionId: string, lightWasOn: bool): set<string> {
    if actionId == "toggle_light" then (if !lightWasOn then {"light_on"} else {"light_off"})
    else if actionId == "normalize_ec" then {"ec_low", "ec_high"}
    else if actionId == "normalize_ph" then {"ph_out"}
    else if actionId == "move_inside" then {"temp_high"}
    else if actionId == "move_outside" then {"temp_low"}
    else if actionId == "refill_water" then {"water_low"}
    else if actionId == "dehumidify" then {"humidity_high"}
    else if actionId == "spray_water" then {"humidity_low"}
    else {}
  }

  /** Turning the light off resolves nothing: no condition the engine checks is called
      "light_off". */
  lemma LightOffFixesNoRaisedPrompt(e: Engine, now: int)
    requires e.lightOn
    requires e.gate.active.Some? && e.gate.active.value.key in set i | 0 <= i < 9 :: Conditions(e)[i].key
    ensures ApplyAction(e, "toggle_light", now).0.gate == e.gate
  {
    var keys := set i | 0 <= i < 9 :: Conditions(e)[i].key;
    assert "light_off" !in keys by {
      var cs := Conditions(e);
      assert forall i :: 0 <= i < 9 ==> cs[i].key != "light_off";
    }
  }

  /** An action only resolves the prompt whose key it fixes: normalizing EC leaves a water
      prompt active, and refilling water resolves it. */
  lemma ActionsResolveOnlyTheirKeys(e: Engine, now: int)
    requires e.gate.active.Some? && e.gate.active.value.key == "water_low"
    ensures ApplyAction(e, "normalize_ec", now).0.gate == e.gate
    ensures ApplyAction(e, "refill_water", now).0.gate.active.None?
    ensures ApplyAction(e, "no_such_action", now).0 == e
  {
    assert !Fixes(e, "normalize_ec");
    assert Fixes(e, "refill_water");
  }

  // ---------------------- Endpoints ----------------------

  /** `POST /start`: blank fields take the defaults Lahore / January / Cherry Tomato / en, a
      running engine is stored under the fresh id `newSid`, and the id is returned. An unknown
      city, month or crop makes the constructor raise: a server error, nothing stored. */
  function Start(sessions: Sessions, req: Request, c: Catalog, newSid: string, now: int): (r: Served)
    ensures var b := req.body.GetOr(EmptyBody);
            var city := OrElse(b.city, "Lahore");
            var month := OrElse(b.month, "January");
            var crop := OrElse(b.crop, "Cherry Tomato");
            && (!Known(c, city, month, crop) ==> r == Served(sessions, InternalError))
            && (Known(c, city, month, crop) ==>
                  && r.reply == SessionCreated(newSid)
                  && r.sessions.Keys == sessions.Keys + {newSid}
                  && (forall k :: k in sessions && k != newSid ==> r.sessions[k] == sessions[k])
                  && r.sessions[newSid].engine == NewEngine(c, city, month, crop).value.(running := true)
                  && r.sessions[newSid].language == OrElse(b.language, "en")
                  && r.sessions[newSid].createdAt == now)
  {
    var b := req.body.GetOr(EmptyBody);
    match NewEngine(c, OrElse(b.city, "Lahore"), OrElse(b.month, "January"), OrElse(b.crop, "Cherry Tomato"))
    case None => Served(sessions, InternalError)
    case Some(e) =>
      Served(sessions[newSid := Session(SetRunning(e, true), OrElse(b.language, "en"), now)], SessionCreated(newSid))
  }

  /** A request without a JSON body reads every field as absent (`get_json(silent=True) or {}`). */
  const EmptyBody: Body := Body(None, None, None, None, None, None, None)

  /** `GET /status`: the session's payload; the table never changes. */
  function Status(sessions: Sessions, req: Request): (r: Served)
    ensures r.sessions == sessions
    ensures GetSession(sessions, req).None? <==> r.reply == Invalid
    ensures GetSession(sessions, req).Some? ==> r.reply == StatusReply(Payload(GetSession(sessions, req).value.1))
  {
    match GetSession(sessions, req)
    case None => Served(sessions, Invalid)
    case Some((_, s)) => Served(sessions, StatusReply(Payload(s)))
  }

  /** Replace the engine of session `sid`, keeping its language and creation time. */
  function WithEngine(sessions: Sessions, sid: string, e: Engine): (r: Sessions)
    requires sid in sessions
    ensures r.Keys == sessions.Keys && r[sid].engine == e
    ensures r[sid].language == sessions[sid].language && r[sid].createdAt == sessions[sid].createdAt
    ensures forall k :: k in sessions && k != sid ==> r[k] == sessions[k]
  {
    sessions[sid := sessions[sid].(engine := e)]
  }

  /** `POST /action`: a bad sid or a missing `action_id` is a 400 that changes nothing;
      otherwise the action is applied to that session's engine only. */
  function Action(sessions: Sessions, req: Request, now: int): (r: Served)
    ensures GetSession(sessions, req).None? ==> r == Served(sessions, Invalid)
    ensures GetSession(sessions, req).Some? && !Truthy(req.body.GetOr(EmptyBody).actionId) ==>
              r == Served(sessions, BadRequest(MissingActionId))
    ensures GetSession(sessions, req).Some? && Truthy(req.body.GetOr(EmptyBody).actionId) ==>
              var (sid, s) := GetSession(sessions, req).value;
              var (e, msg) := ApplyAction(s.engine, req.body.value.actionId.value, now);
              r == Served(WithEngine(sessions, sid, e), ActionReply(msg))
  {
    match GetSession(sessions, req)
    case None => Served(sessions, Invalid)
    case Some((sid, s)) =>
      var actionId := req.body.GetOr(EmptyBody).actionId;
      if !Truthy(actionId) then Served(sessions, BadRequest(MissingActionId))
      else
        var (e, msg) := ApplyAction(s.engine, actionId.value, now);
        Served(WithEngine(sessions, sid, e), ActionReply(msg))
  }

  /** `POST /prompt_result`: the client reports a missed prompt; the session's engine applies
      its staged penalty. */
  function PromptResult(sessions: Sessions, req: Request, now: int): (r: Served)
    ensures GetSession(sessions, req).None? ==> r == Served(sessions, Invalid)
    ensures GetSession(sessions, req).Some? ==>
              var (sid, s) := GetSession(sessions, req).value;
              r == Served(WithEngine(sessions, sid, PromptMissed(s.engine, now)), Ack)
  {
    match GetSession(sessions, req)
    case None => Served(sessions, Invalid)
    case Some((sid, s)) => Served(WithEngine(sessions, sid, PromptMissed(s.engine, now)), Ack)
  }

  /** `POST /pause`: the engine is paused and its snapshot returned. */
  function Pause(sessions: Sessions, req: Request): (r: Served)
    ensures GetSession(sessions, req).None? ==> r == Served(sessions, Invalid)
    ensures GetSession(sessions, req).Some? ==>
              var (sid, s) := GetSession(sessions, req).value;
              && r.sessions == WithEngine(sessions, sid, SetPaused(s.engine, true))
              && r.reply == PauseReply(TakeSnapshot(s.engine))
              && r.sessions[sid].engine.paused
  {
    match GetSession(sessions, req)
    case None => Served(sessions, Invalid)
    case Some((sid, s)) =>
      var e := SetPaused(s.engine, true);
      Served(WithEngine(sessions, sid, e), PauseReply(TakeSnapshot(e)))
  }

  /** `POST /resume`: the engine is unpaused and its loop (re)started. */
  function Resume(sessions: Sessions, req: Request): (r: Served)
    ensures GetSession(sessions, req).None? ==> r == Served(sessions, Invalid)
    ensures GetSession(sessions, req).Some? ==>
              var (sid, s) := GetSession(sessions, req).value;
              && r.reply == Ack && r.sessions.Keys == sessions.Keys
              && !r.sessions[sid].engine.paused && r.sessions[sid].engine.running
              && r.sessions[sid].engine.(paused := s.engine.paused, running := s.engine.running) == s.engine
  {
    match GetSession(sessions, req)
    case None => Served(sessions, Invalid)
    case Some((sid, s)) => Served(WithEngine(sessions, sid, SetRunning(SetPaused(s.engine, false), true)), Ack)
  }

  /** `POST /resume_from_snapshot`: needs a non-empty body sid and a snapshot object (else
      400); a snapshot the engine cannot be built from is a 400 too; otherwise a paused
      engine is stored under that sid, replacing any session already there. The query string
      is not consulted. */
  function ResumeFromSnapshot(sessions: Sessions, req: Request, c: Catalog, now: int): (r: Served)
    ensures var b := req.body.GetOr(EmptyBody);
            && (!Truthy(b.sid) || b.snapshot.None? ==> r == Served(sessions, BadRequest(SidAndSnapshotRequired)))
            && (Truthy(b.sid) && b.snapshot.Some? && FromSnapshot(b.snapshot.value, c).None? ==>
                  r == Served(sessions, BadRequest(BadSnapshot)))
            && (Truthy(b.sid) && b.snapshot.Some? && FromSnapshot(b.snapshot.value, c).Some? ==>
                  && r.reply == Ack
                  && r.sessions == sessions[b.sid.value := Session(FromSnapshot(b.snapshot.value, c).value, OrElse(b.language, "en"), now)]
                  && r.sessions[b.sid.value].engine.paused && !r.sessions[b.sid.value].engine.running)
  {
    var b := req.body.GetOr(EmptyBody);
    if !Truthy(b.sid) || b.snapshot.None? then Served(sessions, BadRequest(SidAndSnapshotRequired))
    else
      match FromSnapshot(b.snapshot.value, c)
      case None => Served(sessions, BadRequest(BadSnapshot))
      case Some(e) => Served(sessions[b.sid.value := Session(e, OrElse(b.language, "en"), now)], Ack)
  }

  /** `POST /restart`: the looked-up session's engine is stopped first; then the session named
      by the body's sid is deleted. Without a JSON body the body lookup raises after the stop:
      a server error with the stopped session still stored. */
  function Restart(sessions: Sessions, req: Request): (r: Served)
    ensures GetSession(sessions, req).None? ==> r == Served(sessions, Invalid)
    ensures GetSession(sessions, req).Some? ==>
              var (sid, s) := GetSession(sessions, req).value;
              var stopped := WithEngine(sessions, sid, SetRunning(s.engine, false));
              && (req.body.None? ==> r == Served(stopped, InternalError))
              && (req.body.Some? ==>
                    && r.reply == Ack
                    && r.sessions == (if req.body.value.sid.Some? then stopped - {req.body.value.sid.value} else stopped))
  {
    match GetSession(sessions, req)
    case None => Served(sessions, Invalid)
    case Some((sid, s)) =>
      var stopped := WithEngine(sessions, sid, SetRunning(s.engine, false));
      match req.body
      case None => Served(stopped, InternalError)
      case Some(b) =>
        if b.sid.Some? then Served(stopped - {b.sid.value}, Ack) else Served(stopped, Ack)
  }

  /** A restart that names its session in the body removes exactly that session. */
  lemma RestartRemovesSession(sessions: Sessions, sid: string, b: Body)
    requires sid != "" && sid in sessions && b.sid == Some(sid)
    ensures var r := Restart(sessions, Request(None, Some(b)));
            r.reply == Ack && r.sessions == sessions - {sid}
  {
    var r := Restart(sessions, Request(None, Some(b)));
    var stopped := WithEngine(sessions, sid, SetRunning(sessions[sid].engine, false));
    assert r.sessions == stopped - {sid};
    assert stopped - {sid} == sessions - {sid};
  }

  /** When the query names one session and the body another, restart stops the first but
      deletes the second. */
  lemma RestartQueryAndBodyDisagree(sessions: Sessions, q: string, other: string, b: Body)
    requires q != "" && q in sessions && other != q && other in sessions && b.sid == Some(other)
    ensures var r := Restart(sessions, Request(Some(q), Some(b)));
            && q in r.sessions && !r.sessions[q].engine.running
            && other !in r.sessions
  {
  }

  /** Pausing and then resuming from the returned snapshot under the same sid restores every
      snapshotted field of the engine, paused. */
  lemma PauseThenResumeFromSnapshot(sessions: Sessions, sid: string, c: Catalog, language: Option<string>, now: int)
    requires sid != "" && sid in sessions && CatalogAgrees(c, sessions[sid].engine)
    ensures var p := Pause(sessions, Request(Some(sid), None));
            p.reply.PauseReply? &&
            var body := Body(Some(sid), None, None, None, None, language, Some(p.reply.snapshot));
            var r := ResumeFromSnapshot(p.sessions, Request(None, Some(body)), c, now);
            && r.reply == Ack && sid in r.sessions
            && TakeSnapshot(r.sessions[sid].engine) == TakeSnapshot(sessions[sid].engine)
            && r.sessions[sid].engine.paused && !r.sessions[sid].engine.running
  {
    var e := SetPaused(sessions[sid].engine, true);
    SnapshotRoundTrip(e, c);
  }

  /** A session created by start is found by status right away, at day 0 with full health. */
  lemma StartThenStatus(sessions: Sessions, c: Catalog, newSid: string, now: int)
    requires newSid != "" && Known(c, "Lahore", "January", "Cherry Tomato")
    ensures var s := Start(sessions, Request(None, None), c, newSid, now);
            var st := Status(s.sessions, Request(Some(newSid), None));
            && st.reply.StatusReply?
            && st.reply.payload.day == 0 && st.reply.payload.health == Full
            && st.reply.payload.city == "Lahore" && st.reply.payload.language == "en"
            && st.reply.payload.requiredAction.None?
  {
  }
}

=== FILE: stages.dfy ===
/** The engine's growth stages: day ranges looked up in table order, the last stage's end,
    and the "next stage" a manual advance moves to. */
module Stages {
  import opened Common

  /** The stage reported once no range covers the day, and once the run is over. */
  const Harvestable: string := "Harvestable"

  /** One entry of the crop's uptake table: a stage name and its inclusive day range. */
  datatype StageSpan = StageSpan(name: string, first: int, last: int)

  predicate Covers(s: StageSpan, day: int) {
    s.first <= day <= s.last
  }

  /** Entry `i` is the first, in table order, whose range contains `day`. */
  predicate FirstCovering(stages: seq<StageSpan>, i: int, day: int) {
    0 <= i < |stages| && Covers(stages[i], day) && forall j :: 0 <= j < i ==> !Covers(stages[j], day)
  }

  /** `get_stage`: the first stage, in table order, whose range contains `day`;
      "Harvestable" when none does. */
  function GetStage(stages: seq<StageSpan>, day: int): (r: string)
    ensures (forall j :: 0 <= j < |stages| ==> !Covers(stages[j], day)) ==> r == Harvestable
    ensures forall i :: FirstCovering(stages, i, day) ==> r == stages[i].name
    decreases |stages|
  {
    if stages == [] then Harvestable
    else if Covers(stages[0], day) then stages[0].name
    else
      var r := GetStage(stages[1..], day);
      assert forall i :: FirstCovering(stages, i, day) ==> r == stages[i].name by {
        forall i | FirstCovering(stages, i, day) ensures r == stages[i].name {
          assert i >= 1;
          assert stages[1..][i - 1] == stages[i];
          assert FirstCovering(stages[1..], i - 1, day) by {
            forall j | 0 <= j < i - 1 ensures !Covers(stages[1..][j], day) {
              assert stages[1..][j] == stages[j + 1];
            }
          }
        }
      }
      assert (forall j :: 0 <= j < |stages| ==> !Covers(stages[j], day)) ==>
               forall j :: 0 <= j < |stages[1..]| ==> !Covers(stages[1..][j], day) by {
        if forall j :: 0 <= j < |stages| ==> !Covers(stages[j], day) {
          forall j | 0 <= j < |stages[1..]| ensures !Covers(stages[1..][j], day) {
            assert stages[1..][j] == stages[j + 1];
          }
        }
      }
      r
  }

  /** `_last_stage_end`: the largest end day in the table; none for an empty table, where
      Python's `max` of an empty sequence raises. */
  function LastStageEnd(stages: seq<StageSpan>): (r: Option<int>)
    ensures r.None? <==> stages == []
    ensures r.Some? ==> forall i :: 0 <= i < |stages| ==> stages[i].last <= r.value
    ensures r.Some? ==> exists i :: 0 <= i < |stages| && stages[i].last == r.value
    decreases |stages|
  {
    if stages == [] then None
    else
      match LastStageEnd(stages[1..])
      case None => Some(stages[0].last)
      case Some(e) =>
        assert forall i :: 1 <= i < |stages| ==> stages[i] == stages[1..][i - 1];
        var j :| 0 <= j < |stages[1..]| && stages[1..][j].last == e;
        assert stages[j + 1].last == e;
        Some(Max(stages[0].last, e))
  }

  /** Past the last stage's end no range covers the day, so the lookup says "Harvestable". */
  lemma PastLastEndIsHarvestable(stages: seq<StageSpan>, day: int)
    requires LastStageEnd(stages).Some? && day > LastStageEnd(stages).value
    ensures GetStage(stages, day) == Harvestable
  {
  }

  /** The stage names in table order (`list(self.uptake.keys())`). */
  function Names(stages: seq<StageSpan>): (r: seq<string>)
    ensures |r| == |stages|
    ensures forall i :: 0 <= i < |stages| ==> r[i] == stages[i].name
  {
    seq(|stages|, i requires 0 <= i < |stages| => stages[i].name)
  }

  /** The stage `advance_to_next_stage` moves to from `current`: the following entry, the
      last one when `current` already is the last, and the first one when `current` is not
      in the table (e.g. "Harvestable"); none for an empty table, where the source's
      `stages[-1]` on an empty list raises. */
  function NextStage(stages: seq<StageSpan>, current: string): (r: Option<StageSpan>)
    ensures r.None? <==> stages == []
    ensures r.Some? ==> r.value in stages
    ensures r.Some? && current !in Names(stages) ==> r.value == stages[0]
    ensures r.Some? && IndexOf(Names(stages), current) == |stages| - 1 ==> r.value == stages[|stages| - 1]
  {
    if stages == [] then None
    else Some(stages[NextStageIndex(Names(stages), current)])
  }

  /** From a stage that is in the table and not the last, the advance moves exactly one
      entry forward. */
  lemma NextStageStepsForward(stages: seq<StageSpan>, i: nat)
    requires i + 1 < |stages|
    requires forall j :: 0 <= j < i ==> stages[j].name != stages[i].name
    ensures NextStage(stages, stages[i].name) == Some(stages[i + 1])
  {
    var names := Names(stages);
    assert names[i] == stages[i].name;
    assert IndexOf(names, stages[i].name) == i;
  }
}

=== FILE: storage.dfy ===
/** The browser's persisted session: four independent keys
    `hydro.sid`, `hydro.params`, `hydro.paused` and `hydro.snapshot`. */
module Storage {
  import opened Common

  /** Setup parameters as chosen in the setup form (`App.params`). */
  datatype Params = Params(city: Option<string>, month: Option<string>, crop: Option<string>, language: string)

  /** `App.params` before any setup: every choice empty, language "en". */
  const DefaultParams: Params := Params(None, None, None, "en")

  /** The paused flag is the string "1" when set. */
  const PausedFlag: string := "1"

  /** One slot per storage key; the snapshot is an opaque blob stored and replayed verbatim.
      The parameters are kept as the value they were serialised from. */
  datatype Store = Store(sid: Option<string>, params: Option<Params>, paused: Option<string>, snapshot: Option<string>)

  const Empty: Store := Store(None, None, None, None)

  /** What the client itself always leaves behind: a paused flag only with a usable
      session id and its parameters, and a snapshot only under a paused flag. */
  predicate Consistent(st: Store) {
    && (st.paused == Some(PausedFlag) ==> Truthy(st.sid) && st.params.Some?)
    && (st.snapshot.Some? ==> st.paused == Some(PausedFlag))
  }

  /** `savePausedSession`: without a session id nothing is written; otherwise the id,
      the parameters and the paused flag are written and the snapshot slot is left alone. */
  function SavePausedSession(st: Store, sid: Option<string>, params: Params): (r: Store)
    ensures !Truthy(sid) ==> r == st
    ensures Truthy(sid) ==> r.sid == sid && r.params == Some(params) && r.paused == Some(PausedFlag)
    ensures r.snapshot == st.snapshot
    ensures Truthy(sid) ==> Consistent(r)
  {
    if !Truthy(sid) then st
    else st.(sid := sid, params := Some(params), paused := Some(PausedFlag))
  }

  /** `clearSavedSession`: all four keys removed. */
  function ClearSavedSession(st: Store): (r: Store)
    ensures r.sid.None? && r.params.None? && r.paused.None? && r.snapshot.None?
    ensures Consistent(r)
  {
    Empty
  }

  /** `clearSavedPausedFlagOnly`: the paused flag and snapshot go, the id and parameters stay. */
  function ClearPausedFlagOnly(st: Store): (r: Store)
    ensures r.paused.None? && r.snapshot.None?
    ensures r.sid == st.sid && r.params == st.params
    ensures Consistent(r)
  {
    st.(paused := None, snapshot := None)
  }

  /** `loadSavedPausedSession`: a session is restored only when the paused flag is "1" and a
      non-empty id is stored; missing parameters fall back to `current`. */
  function LoadSavedPausedSession(st: Store, current: Params): (r: Option<(string, Params)>)
    ensures r.Some? <==> st.paused == Some(PausedFlag) && Truthy(st.sid)
    ensures r.Some? ==> r.value.0 == st.sid.value && r.value.0 != ""
    ensures r.Some? ==> r.value.1 == st.params.GetOr(current)
  {
    if st.paused == Some(PausedFlag) && Truthy(st.sid) then Some((st.sid.value, st.params.GetOr(current)))
    else None
  }

  /** A store the client wrote itself always yields its paused session back on load. */
  lemma ConsistentPausedStoreLoads(st: Store, current: Params)
    requires Consistent(st) && st.paused == Some(PausedFlag)
    ensures LoadSavedPausedSession(st, current) == Some((st.sid.value, st.params.value))
  {
  }

  /** Saving a paused session and loading it back returns the same id and parameters. */
  lemma SaveThenLoad(st: Store, sid: string, params: Params, current: Params)
    requires sid != ""
    ensures LoadSavedPausedSession(SavePausedSession(st, Some(sid), params), current) == Some((sid, params))
  {
  }
}
